=== FILE: README.md ===
# Mozillians phonebook: trust rules, URL helpers and locale settings

A Dafny model of what the Mozillians phonebook decides on its own, apart from
the database, the forms and the templates.

- **The phonebook views.** This covers where `login` sends a member and who
  may see another member's profile. For `edit_profile` it covers which forms
  receive the posted data and when an invite is redeemed. It also covers the
  primary/alternate e-mail swap, the page a listing shows and when its
  pagination bar appears, and who may issue or revoke an invite. For
  `register` it covers when a stored code is redeemed. Last come the two
  testing views that auto-vouch and unvouch a member.
- **The common helpers.** These are `chunked`, `absolutify` and `urlparams`.
- **The locale helpers and settings.** These are `canonical_path`, `i18n`,
  the trust and paging constants, the lower-cased language URL map and the
  allowed-hosts list.

Each view is a pure function. It takes the request and the abstract state it
reads. What it returns depends on the view:

- The profile, edit and search views return an `Outcome`. An outcome holds a
  response (a redirect, a 404, a 405 or a rendered page with the data the view
  decides) and a list of effects.
- The invite views return an `InviteOutcome`, which also holds the stored
  invitations, and `register` returns a `RegisterOutcome`, which also holds
  the session.
- The testing vouch views return a `VouchOutcome`, which also holds the vouch
  ledger.
- The e-mail views return a `Result`: the new e-mail state, or a 404. Their
  closing redirect to the profile editor is not modelled.

The effects are the calls a view makes into code outside the model, with
their arguments:

- `UserProfile.vouch`
- `redeem_invite`
- a form's `save`
- `Invite.send`
- flash messages

Whatever such a call returns is a parameter of the view. An example is
whether `vouch` accepted a vouch.

Modules:

- `Results` holds `Option` and `Result`.
- `Text` holds prefixes, suffixes, ASCII lower-casing and decimal printing
  and parsing.
- `Settings` holds `mozillians/settings/base.py`.
- `Utils` holds `mozillians/common/utils.py`.
- `ContextProcessors` holds `mozillians/common/context_processors.py`.
- `Phonebook` holds the types the views share.
- `ProfileViews`, `EmailViews`, `SearchViews`, `InviteViews` and `VouchViews`
  hold `mozillians/phonebook/views.py`, one group of views each.

Python 2 does not fix the iteration order of a dictionary, and two places
depend on it. The first is `edit_profile`'s choice of section when several
section keys are posted; it takes that order as a parameter. The second is
the order of `urlparams`' output query; it is kept as a map.

Three facts about the views shape the model:

- The views have no vouch ledger with limit, duplicate or self-vouch checks.
  Those checks would live inside `UserProfile.vouch`. The only trace of the
  cap is an error message, so the cap appears only as an explicit assumption
  (`VouchViews.TestingVouchKeepsLimit`).
- `register` redeems a code only for a signed-in member who is not yet
  vouched. An anonymous visitor only gets a message, and the code is kept in
  the session.
- Revoking an invite gives the same 404 whether the invite is missing,
  belongs to someone else or is already redeemed. The code has no separate
  "already redeemed" error.

`search` and `betasearch` page their results by the form's `limit`, but they
show the pagination bar when the total is above `ITEMS_PER_PAGE`. The two can
disagree: with a limit of 10 and 20 matches there are two pages and no bar.
`SearchViews.SearchPaginationIgnoresLimit` exhibits this. The location list
pages by `ITEMS_PER_PAGE` itself, so there the bar appears exactly when there
is more than one page.

## Model

| member | source | states |
|---|---|---|
| `Settings.TrustConstants` | mozillians/settings/base.py:466-470 | The vouch cap is 6 and the vouching threshold is 3. So a member can gain the right to vouch before reaching the cap. |
| `Settings.AutoVouchSettings` | mozillians/settings/base.py:317-318 | Exactly mozilla.com, mozilla.org and mozillafoundation.org earn an automatic vouch, and the recorded reason is non-empty. |
| `Settings.PageSize` | mozillians/settings/base.py:422-423 | Listings show 24 items to a page. |
| `Settings.LowerKeyed` | mozillians/settings/base.py:90 | Every code in the list has its lower-cased form as a key. Every key is the lower-cased form of the listed code it maps to. |
| `Settings.LangUrlMap` | mozillians/settings/base.py:87-90 | The map draws on the development languages in DEV mode and on the production languages otherwise. It fails exactly when DEV is set and the development list is `None`. Its keys are lower-cased codes of the chosen list, and they map back to those codes. |
| `Settings.LowerKeyedMapsBack` | mozillians/settings/base.py:90 | When no two codes differ only in case, each lower-cased code maps back to exactly its own code. |
| `Settings.ProductionLangUrlMap` | mozillians/settings/base.py:148-150 | No two production languages clash once lower-cased. So the deployed map sends every lower-cased production code back to that code. |
| `Settings.AllowedHosts` | mozillians/settings/base.py:393-399 | The result has exactly one entry. A host part with no ':' is kept whole. Otherwise only the text after the last ':' is dropped, together with that ':'. |
| `Settings.AllowedHostsDropsPort` | mozillians/settings/base.py:398 | Appending ":" and a port to a host and then dropping it gives the host back, even when the host contains ':'. |
| `Utils.Split` | mozillians/common/utils.py:47-52 | For a positive size, joining the chunks gives back the input. Every chunk is non-empty and at most `n` long, and every chunk except the last is exactly `n` long. There are as many chunks as needed to hold the input and no more. |
| `Utils.Chunked` | mozillians/common/utils.py:35-52 | A negative size is an error, a size of 0 yields nothing, and an empty input yields nothing. For `n >= 1` the chunks are well-formed, they rebuild the input, and there are ceil(len/n) of them. |
| `Utils.ChunkedLoop` | mozillians/common/utils.py:47-52 | The generator loop yields exactly the chunks `Chunked` describes, and it stops at the first empty slice. |
| `Utils.ChunkedDoctest` | mozillians/common/utils.py:39-44 | `chunked(range(8), 3)` gives `[0,1,2]`, `[3,4,5]`, `[6,7]`. |
| `Utils.Absolutify` | mozillians/common/utils.py:18-32 | The result always ends with the URL. With `SITE_URL` set it is `SITE_URL` followed by the URL. Otherwise it starts with protocol and host, and nothing comes between host and URL exactly for (https, 443) and (http, 80). |
| `Utils.AbsolutifyCarriesPort` | mozillians/common/utils.py:29-30 | For any other port, the text between host and URL is ':' followed by digits that read back as the configured port. |
| `Utils.AbsolutifyWithBaseSettings` | mozillians/common/utils.py:23-28 | With the base settings (https, 443, no `SITE_URL`) the result is "https://", the host and the URL. |
| `Utils.QueryDict` | mozillians/common/utils.py:84 | Every name in the query is a key. Every key is bound to a value that appears with it. A name's value is the one at its last occurrence. |
| `Utils.ApplyUpdates` | mozillians/common/utils.py:85-88 | A parameter updated to `None` is absent. A parameter updated to a value has that value. Every other parameter is present exactly when it was before, with the same value. |
| `Utils.ApplyUpdatesIdempotent` | mozillians/common/utils.py:85-88 | Applying the same updates twice gives the same query as applying them once. |
| `Utils.UrlParams` | mozillians/common/utils.py:72-91 | Scheme, host, path and params are unchanged. The fragment is replaced only when `hash` is given. A parameter passed as `None` is absent, a parameter passed with a value has that value, and every other parameter keeps its value from the original query. |
| `Utils.QueryDictOfListing` | mozillians/common/utils.py:84 | Reading back any listing of a map's entries gives that map. |
| `Utils.UrlParamsIdempotent` | mozillians/common/utils.py:76-91 | Applying the same parameters and fragment again to the output (as a listing of its query) changes nothing. |
| `ContextProcessors.StripLangPrefix` | mozillians/common/context_processors.py:32 | The result is always a suffix of the path. If the path starts with "/"+lang, that prefix is removed once; otherwise the path is unchanged. |
| `ContextProcessors.CanonicalPath` | mozillians/common/context_processors.py:25-32 | The same, with the language defaulting to `LANGUAGE_CODE` and the path defaulting to "/". |
| `ContextProcessors.CanonicalPathDefaults` | mozillians/common/context_processors.py:30-31 | A request with neither attribute yields "/". |
| `ContextProcessors.CanonicalPathNotSegmentAware` | mozillians/common/context_processors.py:32 | The match is textual: "/en-USA/groups" becomes "A/groups". A code that is not at the start is left alone. |
| `ContextProcessors.I18n` | mozillians/common/context_processors.py:8-13 | LANG is the map's entry for the active language when that entry exists and is non-empty, and the active language otherwise. DIR is "rtl" exactly for a bidirectional language, and "ltr" otherwise. |
| `ContextProcessors.I18nRestoresConfiguredCode` | mozillians/common/context_processors.py:10-11 | With the deployed map, a production language that is active in lower case comes back as its configured code. |
| `ProfileViews.Login` | mozillians/phonebook/views.py:32-36 | Login goes home exactly when the profile is complete, and to the profile editor otherwise. Completeness is taken to be a non-empty full name (see "Left out"). |
| `ProfileViews.LoginIgnoresVouching` | mozillians/phonebook/tests/test_views_login.py:21-33 | Being vouched does not change where login goes. A vouched member with an empty full name lands on the editor. |
| `ProfileViews.ViewAsLevel` | mozillians/phonebook/views.py:94-101 | A recognised `view_as` name gives the level of that name. "myself" and unknown names give no restriction. |
| `ProfileViews.ViewAsRoundTrip` | mozillians/phonebook/views.py:94-95 | Every privacy level can be previewed by its name. |
| `ProfileViews.ViewProfile` | mozillians/phonebook/views.py:89-154 | This covers another member's profile. With no public version, an anonymous viewer must log in and an unvouched member is sent home. A viewer who may look, but finds a missing or incomplete profile, gets a 404, and a 404 happens only then. The owner always gets the page, and so does a permitted viewer of a complete profile who does not vouch. A rendered page makes no call. The login and home redirects carry only their notice, and a vouch only its thank-you notice. A vouch is made exactly when a member posts a valid vouch form on a vouchable, complete profile, and then the call carries the viewer and the description. A rendered page is the profile of the requested `username`, and it carries the preview mode only on one's own profile. The rendered privacy level is the viewer's own, or the previewed one on one's own profile. Pending groups show only to the owner or a superuser. |
| `ProfileViews.MissingProfileAsksAnonymousToLogIn` | mozillians/phonebook/views.py:105-115 | A profile that does not exist at all sends an anonymous visitor to log in rather than to a 404. |
| `ProfileViews.SectionNamed` | mozillians/phonebook/views.py:169-182 | A recognised POST key names the section whose key it is. |
| `ProfileViews.SectionKeyRoundTrip` | mozillians/phonebook/views.py:169-182 | Every section is recognised by its own key. |
| `ProfileViews.SectionKeyInjective` | mozillians/phonebook/views.py:169-182 | No two sections share a key. |
| `ProfileViews.CurrentSection` | mozillians/phonebook/views.py:184 | The chosen section is posted, and it is the first posted one in dictionary order. There is none exactly when no section key is posted. |
| `ProfileViews.OnlyPostedSection` | mozillians/phonebook/views.py:184 | When exactly one section key is posted, that section is chosen whatever the order. |
| `ProfileViews.SaveSection` | mozillians/phonebook/views.py:239-249 | The section's forms are saved in order, and only those forms. The invite is redeemed, with the session's code, exactly for the registration section, and as the last call. Otherwise the username-change notice follows the saves exactly when the username changed, and nothing else follows. |
| `ProfileViews.EditProfile` | mozillians/phonebook/views.py:157-265 | A POST naming no section is a 404, and a 404 happens only for a POST. Only forms of posted sections receive data; with one posted section, exactly its forms do. A GET renders unbound forms. For a POST, the chosen section is saved and the view redirects exactly when all its forms are valid; otherwise exactly that section's forms are shown bound and invalid, and nothing is saved. `redeem_invite` is called exactly after a valid registration save, as the last call. The redirect keeps the editor's path and carries `next` as its fragment. |
| `EmailViews.ChangePrimaryEmail` | mozillians/phonebook/views.py:283-308 | An account that is not the member's own alternate e-mail gives a 404. Otherwise the primary address and the alternate's identifier swap exactly, and every other account is unchanged. |
| `EmailViews.ChangePrimaryEmailTwice` | mozillians/phonebook/views.py:295-302 | Promoting the same alternate twice restores the original state. |
| `EmailViews.DeleteEmail` | mozillians/phonebook/views.py:268-280 | Only the owner's account is deleted, of any type. Everything else, the primary address included, is unchanged. Any other account gives a 404. |
| `EmailViews.DeleteEmailOnce` | mozillians/phonebook/views.py:268-280 | A deleted account cannot be deleted again or promoted to primary; both give a 404. |
| `SearchViews.PageToShow` | mozillians/phonebook/views.py:355-360 | The page shown always exists. A non-integer or absent page gives page 1, and an out-of-range page gives the last page. |
| `SearchViews.PageToShowHonoursExactlyValidPages` | mozillians/phonebook/views.py:355-360 | A requested page is shown exactly when it exists. Requesting the page shown gives it again. |
| `SearchViews.LocationPaginationMeansSeveralPages` | mozillians/phonebook/views.py:517-528 | With pages of `ITEMS_PER_PAGE`, the bar shows exactly when there is more than one page. |
| `SearchViews.SearchPaginationIgnoresLimit` | mozillians/phonebook/views.py:353-365 | A search page counted with the form's limit, but with the bar tested against `ITEMS_PER_PAGE`, can lack the bar when there are two pages (limit 10, 20 matches) and have it when there is one (limit 50, 30 matches). |
| `SearchViews.Search` | mozillians/phonebook/views.py:330-374 | A valid search with exactly one match jumps to that profile, unless groups matched for a vouched member. Otherwise a valid search renders the results page at the fallback page. The bar shows exactly above `ITEMS_PER_PAGE` matches. Only public profiles are searched unless the viewer is a vouched member. |
| `SearchViews.BetaSearch` | mozillians/phonebook/views.py:377-426 | It behaves like search without groups and without the jump to a single match. |
| `SearchViews.SearchAgreesWithBetaSearch` | mozillians/phonebook/views.py:330-426 | Whenever search does not jump to a profile, its outcome is the one beta search gives for the same form and counts. A jump needs a valid form with exactly one match. |
| `SearchViews.LocationList` | mozillians/phonebook/views.py:508-536 | The shown page follows the fallback rule over pages of `ITEMS_PER_PAGE`. The bar shows exactly when there are several pages. |
| `InviteViews.InviteView` | mozillians/phonebook/views.py:437-462 | The forms exist only for a member who can vouch. An invite is stored, unredeemed, with the vouch description as its reason, exactly when both posted forms are valid. Then the invite is sent with the personal message and the view redirects. Otherwise nothing changes. |
| `InviteViews.DeleteInvite` | mozillians/phonebook/views.py:465-475 | A request other than POST is refused. Only the inviter's own unredeemed invite is removed. Anything else is a 404 that changes nothing, and every other invite is kept. |
| `InviteViews.IssueThenRevoke` | mozillians/phonebook/views.py:446-469 | An invite just issued can be revoked by its inviter, which restores the invitations. Anyone else gets a 404. |
| `InviteViews.RevokeOnce` | mozillians/phonebook/views.py:468-469 | A second revocation of the same invite is a 404. |
| `InviteViews.Register` | mozillians/phonebook/views.py:546-563 | A `code` parameter is stored in the session under `invite-code`, and no other session key changes. `redeem_invite` is called with it exactly for a signed-in member who is not vouched. An anonymous visitor gets only the sign-in message, and a vouched member gets no call or message. The view always goes home. |
| `InviteViews.InviteLinkThenRegistration` | mozillians/phonebook/views.py:244-245 | A code stored by `register` before sign-in is the one a later valid registration save redeems. |
| `VouchViews.RemoveReceived` | mozillians/phonebook/views.py:84 | Exactly the vouches the member received are removed. Every other member's count is unchanged. |
| `VouchViews.RemoveReceivedIdempotent` | mozillians/phonebook/views.py:84 | Removing a member's vouches again changes nothing. |
| `VouchViews.TestingVouch` | mozillians/phonebook/views.py:49-70 | An unknown user gives a 404. Otherwise the view asks for an automatic vouch with no voucher and a description ending in the time. It reports success, or failure citing `VOUCH_COUNT_LIMIT`, and returns to the profile. The ledger gains that one vouch exactly when it is accepted. |
| `VouchViews.TestingUnvouch` | mozillians/phonebook/views.py:73-86 | An unknown user gives a 404. Otherwise every vouch the member received is deleted and nobody else's is touched. |
| `VouchViews.UnvouchUndoesTestingVouch` | mozillians/phonebook/views.py:59-84 | Unvouching after a test vouch leaves the ledger as unvouching alone would. Unvouching twice is the same as once. |
| `VouchViews.TestingVouchKeepsLimit` | mozillians/phonebook/views.py:66-67 | If `vouch` refuses a vouch once the cap is reached, the test view keeps every member within `VOUCH_COUNT_LIMIT`. |

## Left out

- The vouch and invite internals are calls out of the model, and their
  results are parameters. These are `UserProfile.vouch`, `is_vouchable`,
  `can_vouch`, `is_vouched` and `redeem_invite`. Their code is not part of
  this model.
- The invite mail (`Invite.send`) and form validation are also calls out of
  the model, for the same reason.
- VouchViews.TestingVouchKeepsLimit: the cap is an assumption about
  `UserProfile.vouch`, not a property proved of the shown code. The shown
  code only names `VOUCH_COUNT_LIMIT` in an error message.
- VouchViews.TestingVouch: what `UserProfile.vouch` does to the ledger is an
  assumption. When it accepts, exactly the record with no voucher, the
  member, the test description and the autovouch flag is appended; when it
  refuses, nothing changes. `VouchViews.UnvouchUndoesTestingVouch` and
  `VouchViews.TestingVouchKeepsLimit` rest on it.
- ProfileViews.EditProfile: `edit_profile` uses the `urlparams` helper of
  `funfactory.helpers`, which is not part of this model. It is taken to
  behave like the `urlparams` of `mozillians/common/utils.py`, which
  `Utils.UrlParams` models.
- `UserProfile.is_complete`, which `login` asks, is defined outside the views
  and is not part of this model. `Phonebook.IsComplete` takes it to be a
  non-empty full name, the test `view_profile` applies with
  `exclude(full_name='')`.
- The ledger kept by the testing views is the list of vouch records. It does
  not recompute `is_vouched` or `can_vouch`, because that code is not part of
  this model.
- The ORM is left out, because it is persistence, not decision logic. This
  covers `get_object_or_404`, the query sets and
  `transaction.atomic`. Concurrency is left out for the same reason.
- Rendering, templates, the texts of flash messages, waffle flags and the
  decorators (`allow_public`, `allow_unvouched`, `never_cache`,
  `cache_page`, `require_POST`'s response body) are framework plumbing.
  Messages appear only as `Notice` values, and `require_POST` only as the
  405 of `delete_invite`.
- The search backends and Django's `Paginator` are library code. This covers
  `UserProfileMappingType.search`, `Group.search` and `SearchFilter`. `search`
  and `betasearch` receive the number of matches and pages.
  `SearchViews.LocationList` receives only the number of matches and counts
  the pages itself with `SearchViews.NumPages`. That function stands for
  `Paginator.num_pages` with an empty first page allowed and no orphans.
  Beyond that, only the fallback rule and the bar rule are modelled.
- `urlparse`, `parse_qsl`, `urlencode` and `smart_str` are library calls.
  `Utils.Url` holds the URL already split, with the query as the decoded
  pairs `parse_qsl` returns. `Utils.UrlParams` returns the components before
  encoding.
- Utils.UrlParams: the output query is a map, because its order comes from
  dictionary iteration, which Python 2 does not fix.
- ContextProcessors.CanonicalPath: the language code is matched as literal
  text. Regular-expression metacharacters in a code are not modelled, and
  the deployed codes contain none.
- Utils.Chunked: `n = None` (islice with no stop) is not modelled. No caller
  in the model passes it.
- `Text.Lower` lower-cases ASCII letters only. All configured language codes
  are ASCII.
- `get_language`, `get_language_bidi` and the request's locale are
  parameters. They come from Django's translation machinery.
- Some views are outside the views this model covers: `home`, `logout`,
  `confirm_delete`, `delete`, `search_plugin`, `apikeys` and
  `delete_apikey`. Some of them decide things: `home` sets `show_start` from
  the `source` parameter, `apikeys` saves and redirects exactly when its form
  is valid, and `delete_apikey` gives a 404 to anyone but the key's owner.
- `thisyear`, `current_year`, `url`, `static`, the `urlencode` filter and
  the `globals` context processor are left out. They depend on the clock,
  URL routing, static files or plain re-exports.
- The bound files (`request.FILES`) of the registration and basic forms are
  not modelled. Only which forms receive POST data is.
- The rest of the settings file is configuration data with no behaviour in
  the modelled code. This covers the database, CSP, caches, BrowserID and
  `lazy_langs`.

=== FILE: context.dfy ===
/** The template context processors that depend on the request's locale:
    `canonical_path` and `i18n`. */
module ContextProcessors {
  import opened Results
  import opened Text
  import Settings

  /** The request attributes `canonical_path` reads; either may be missing. */
  datatype Request = Request(locale: Option<string>, path: Option<string>)

  /** Remove a leading "/" + lang from `path`, once. The language code is
      matched as literal text, so a longer code or a path segment that merely
      starts with the code is cut as well. */
  function StripLangPrefix(lang: string, path: string): (r: string)
    ensures IsSuffix(r, path)
    ensures IsPrefix("/" + lang, path) ==> "/" + lang + r == path
    ensures !IsPrefix("/" + lang, path) ==> r == path
  {
    var prefix := "/" + lang;
    if IsPrefix(prefix, path) then
      assert path == prefix + path[|prefix|..];
      path[|prefix|..]
    else path
  }

  /** `canonical_path(request)`: the request's locale defaults to
      `LANGUAGE_CODE` and its path to "/". */
  function CanonicalPath(req: Request): (r: string)
    ensures var lang := req.locale.GetOr(Settings.LANGUAGE_CODE);
      var path := req.path.GetOr("/");
      IsSuffix(r, path) &&
      (IsPrefix("/" + lang, path) ==> "/" + lang + r == path) &&
      (!IsPrefix("/" + lang, path) ==> r == path)
  {
    StripLangPrefix(req.locale.GetOr(Settings.LANGUAGE_CODE), req.path.GetOr("/"))
  }

  /** A request with neither attribute yields "/", since "/" does not start with "/en-US". */
  lemma CanonicalPathDefaults()
    ensures CanonicalPath(Request(None, None)) == "/"
  {
    assert !IsPrefix("/" + Settings.LANGUAGE_CODE, "/");
  }

  /** The match is textual, not by path segment: "/en-USA/groups" loses "/en-US". */
  lemma CanonicalPathNotSegmentAware()
    ensures StripLangPrefix("en-US", "/en-USA/groups") == "A/groups"
    ensures StripLangPrefix("en-US", "/fr/en-US/") == "/fr/en-US/"
  {
    var prefix := "/" + "en-US";
    assert prefix == "/en-US";
    var a := "/en-USA/groups";
    assert a[..6] == prefix;
    assert a[6..] == "A/groups";
    var b := "/fr/en-US/";
    assert b[..6][1] == 'f';
    assert prefix[1] == 'e';
  }

  /** The `LANG` and `DIR` entries `i18n` adds to the template context. */
  datatype LocaleContext = LocaleContext(lang: string, dir: string)

  /** `i18n(request)`: LANG is the URL map's entry for the active language when
      that entry exists and is non-empty, the active language otherwise; DIR is
      "rtl" for a bidirectional language and "ltr" otherwise. */
  function I18n(urlMap: map<string, string>, active: string, bidi: bool): (r: LocaleContext)
    ensures active in urlMap && urlMap[active] != "" ==> r.lang == urlMap[active]
    ensures active !in urlMap || urlMap[active] == "" ==> r.lang == active
    ensures r.dir == "rtl" <==> bidi
    ensures r.dir == "rtl" || r.dir == "ltr"
  {
    var mapped := if active in urlMap then urlMap[active] else "";
    LocaleContext(if mapped != "" then mapped else active, if bidi then "rtl" else "ltr")
  }

  /** With the deployed language map, an active language given in lower case
      comes back as the configured code. */
  lemma I18nRestoresConfiguredCode(code: string, bidi: bool)
    requires code in Settings.PROD_LANGUAGES
    ensures var m := Settings.LangUrlMap(Settings.DEV, Settings.DEV_LANGUAGES, Settings.PROD_LANGUAGES);
      m.Ok? && I18n(m.value, Lower(code), bidi).lang == code
  {
    Settings.ProductionLangUrlMap();
    var m := Settings.LangUrlMap(Settings.DEV, Settings.DEV_LANGUAGES, Settings.PROD_LANGUAGES).value;
    assert m[Lower(code)] == code;
    Settings.ProductionCodesNonEmpty();
  }
}

=== FILE: email_views.dfy ===
/** The e-mail views: promoting an alternate address to primary (the two
    addresses swap places) and deleting an external account. Only the owner
    of an account may do either; anything else is a 404 that changes nothing. */
module EmailViews {
  import opened Results

  datatype AccountType = EmailAccount | OtherAccount(kind: string)

  /** An external account (alternate e-mail address or other identity) of some member. */
  datatype ExternalAccount = ExternalAccount(owner: string, accountType: AccountType, identifier: string)

  /** The requesting member's primary address and the table of all external accounts. */
  datatype EmailState = EmailState(primaryEmail: string, accounts: map<nat, ExternalAccount>)

  datatype EmailError = NotFound

  /** The account `pk` is an alternate e-mail address of `me`. */
  predicate OwnsAlternateEmail(st: EmailState, me: string, pk: nat) {
    pk in st.accounts && st.accounts[pk].owner == me && st.accounts[pk].accountType == EmailAccount
  }

  /** `change_primary_email(request, email_pk)` for the member `me`. */
  function ChangePrimaryEmail(st: EmailState, me: string, pk: nat): (r: Result<EmailState, EmailError>)
    ensures r.Err? <==> !OwnsAlternateEmail(st, me, pk)
    ensures r.Ok? ==>
      && r.value.primaryEmail == st.accounts[pk].identifier
      && pk in r.value.accounts
      && r.value.accounts[pk].identifier == st.primaryEmail
      && r.value.accounts[pk].owner == me
      && r.value.accounts[pk].accountType == EmailAccount
    ensures r.Ok? ==> r.value.accounts.Keys == st.accounts.Keys
    ensures r.Ok? ==> forall q :: q in st.accounts && q != pk ==> r.value.accounts[q] == st.accounts[q]
  {
    if !OwnsAlternateEmail(st, me, pk) then Err(NotFound)
    else
      var alternate := st.accounts[pk];
      Ok(EmailState(alternate.identifier, st.accounts[pk := alternate.(identifier := st.primaryEmail)]))
  }

  /** Promoting the same address twice puts both addresses back where they were. */
  lemma ChangePrimaryEmailTwice(st: EmailState, me: string, pk: nat)
    requires OwnsAlternateEmail(st, me, pk)
    ensures var once := ChangePrimaryEmail(st, me, pk);
      once.Ok? && ChangePrimaryEmail(once.value, me, pk) == Ok(st)
  {
    var once := ChangePrimaryEmail(st, me, pk).value;
    assert OwnsAlternateEmail(once, me, pk);
    var twice := ChangePrimaryEmail(once, me, pk).value;
    assert twice.accounts == st.accounts;
  }

  /** `delete_email(request, email_pk)`: the account must belong to `me`, but
      its type is not checked, so any of the member's external accounts can go. */
  function DeleteEmail(st: EmailState, me: string, pk: nat): (r: Result<EmailState, EmailError>)
    ensures r.Err? <==> !(pk in st.accounts && st.accounts[pk].owner == me)
    ensures r.Ok? ==> r.value.primaryEmail == st.primaryEmail
    ensures r.Ok? ==> pk !in r.value.accounts && r.value.accounts.Keys == st.accounts.Keys - {pk}
    ensures r.Ok? ==> forall q :: q in r.value.accounts ==> r.value.accounts[q] == st.accounts[q]
  {
    if pk in st.accounts && st.accounts[pk].owner == me then
      Ok(st.(accounts := st.accounts - {pk}))
    else Err(NotFound)
  }

  /** A deleted account is gone for good: deleting it again, or promoting it
      to primary, is a 404. */
  lemma DeleteEmailOnce(st: EmailState, me: string, pk: nat)
    requires pk in st.accounts && st.accounts[pk].owner == me
    ensures var after := DeleteEmail(st, me, pk);
      && after.Ok?
      && DeleteEmail(after.value, me, pk) == Err(NotFound)
      && ChangePrimaryEmail(after.value, me, pk) == Err(NotFound)
  {
  }
}

=== FILE: invite_views.dfy ===
/** The invitation views: issuing an invite (only members who can vouch get
    the forms), revoking one (only its inviter, only while unredeemed), and
    the registration entry point that keeps an invite code in the session and
    redeems it for a signed-in, unvouched member. Redemption itself
    (`redeem_invite`) and the invite mail are calls out of this model. */
module InviteViews {
  import opened Results
  import opened Phonebook
  import ProfileViews
  import Utils

  /** A stored invitation; `redeemed` is set once somebody has used its code. */
  datatype Invite = Invite(inviter: string, recipient: string, reason: string, redeemed: bool)

  /** The invite and vouch forms as posted: recipient, personal message, vouch
      description, and whether each form validates. */
  datatype InvitePost =
    | NoInvitePost
    | InvitePosted(recipient: string, message: string, description: string,
                   inviteValid: bool, vouchValid: bool)

  datatype InviteOutcome = InviteOutcome(response: Response, invites: map<nat, Invite>, effects: seq<Effect>)

  predicate InviteAccepted(profile: Profile, post: InvitePost) {
    profile.canVouch && post.InvitePosted? && post.inviteValid && post.vouchValid
  }

  /** `invite(request)` by member `me`; `slot` is the key the new invite is
      stored under. */
  function InviteView(me: string, profile: Profile, post: InvitePost,
                      invites: map<nat, Invite>, slot: nat): (o: InviteOutcome)
    requires slot !in invites
    ensures o.invites != invites <==> InviteAccepted(profile, post)
    ensures o.invites != invites ==> profile.canVouch
    ensures InviteAccepted(profile, post) ==>
      && slot in o.invites
      && o.invites[slot] == Invite(me, post.recipient, post.description, false)
      && o.invites - {slot} == invites
      && o.effects == [SendInvite(me, post.recipient, post.message), Notify(InviteSent(post.recipient))]
      && o.response == Redirect(InviteList)
    ensures !InviteAccepted(profile, post) ==>
      o.effects == [] && o.response == Render(InvitePage(profile.canVouch))
  {
    if InviteAccepted(profile, post) then
      var created := Invite(me, post.recipient, post.description, false);
      assert slot in invites[slot := created];
      assert invites[slot := created] - {slot} == invites;
      InviteOutcome(Redirect(InviteList), invites[slot := created],
                    [SendInvite(me, post.recipient, post.message), Notify(InviteSent(post.recipient))])
    else
      InviteOutcome(Render(InvitePage(profile.canVouch)), invites, [])
  }

  /** The invite `pk` exists, was issued by `me` and has not been redeemed. */
  predicate Revocable(invites: map<nat, Invite>, me: string, pk: nat) {
    pk in invites && invites[pk].inviter == me && !invites[pk].redeemed
  }

  /** `delete_invite(request, invite_pk)` by member `me`; only POST is accepted. */
  function DeleteInvite(isPost: bool, me: string, pk: nat, invites: map<nat, Invite>): (o: InviteOutcome)
    ensures !isPost ==> o == InviteOutcome(MethodNotAllowed, invites, [])
    ensures isPost && !Revocable(invites, me, pk) ==> o == InviteOutcome(NotFound, invites, [])
    ensures isPost && Revocable(invites, me, pk) ==>
      && o.invites == invites - {pk}
      && o.response == Redirect(InviteList)
      && o.effects == [Notify(InviteRevoked(invites[pk].recipient))]
    ensures o.invites != invites <==> isPost && Revocable(invites, me, pk)
    ensures forall q :: q in invites && (q != pk || invites[q].redeemed || invites[q].inviter != me) ==>
      q in o.invites && o.invites[q] == invites[q]
  {
    if !isPost then InviteOutcome(MethodNotAllowed, invites, [])
    else if !Revocable(invites, me, pk) then InviteOutcome(NotFound, invites, [])
    else
      assert pk !in invites - {pk};
      InviteOutcome(Redirect(InviteList), invites - {pk}, [Notify(InviteRevoked(invites[pk].recipient))])
  }

  /** An invite just issued can be revoked by its inviter, which restores the
      invitations as they were; nobody else can revoke it. */
  lemma IssueThenRevoke(me: string, profile: Profile, post: InvitePost,
                        invites: map<nat, Invite>, slot: nat, other: string)
    requires slot !in invites && InviteAccepted(profile, post) && other != me
    ensures var issued := InviteView(me, profile, post, invites, slot).invites;
      && DeleteInvite(true, me, slot, issued).invites == invites
      && DeleteInvite(true, other, slot, issued).response == NotFound
  {
  }

  /** Revocation happens at most once: a revoked invite is gone, and a second
      attempt is a 404. */
  lemma RevokeOnce(me: string, pk: nat, invites: map<nat, Invite>)
    requires Revocable(invites, me, pk)
    ensures var after := DeleteInvite(true, me, pk, invites).invites;
      DeleteInvite(true, me, pk, after) == InviteOutcome(NotFound, after, [])
  {
  }

  /** The session key under which `register` keeps the invite code. */
  const INVITE_CODE_KEY: string := "invite-code"

  datatype RegisterOutcome = RegisterOutcome(response: Response, session: map<string, string>, effects: seq<Effect>)

  /** `register(request)`, with the `code` query parameter if present. */
  function Register(viewer: Viewer, code: Option<string>, session: map<string, string>): (o: RegisterOutcome)
    ensures o.response == Redirect(Home)
    ensures code.None? ==> o.session == session && o.effects == []
    ensures code.Some? ==>
      && INVITE_CODE_KEY in o.session && o.session[INVITE_CODE_KEY] == code.value
      && forall k :: k in session && k != INVITE_CODE_KEY ==> k in o.session && o.session[k] == session[k]
    ensures CallsRedeemInvite(o.effects) <==> code.Some? && viewer.Member? && !viewer.profile.isVouched
    ensures CallsRedeemInvite(o.effects) ==> o.effects == [CallRedeemInvite(viewer.username, code)]
    ensures Notify(InvitedSignIn) in o.effects <==> code.Some? && viewer.Anonymous?
    // nothing else changes
    ensures code.Some? ==> o.session == session[INVITE_CODE_KEY := code.value]
    ensures code.Some? && viewer.Anonymous? ==> o.effects == [Notify(InvitedSignIn)]
    ensures viewer.Member? && viewer.profile.isVouched ==> o.effects == []
  {
    match code
    case None => RegisterOutcome(Redirect(Home), session, [])
    case Some(c) =>
      var stored := session[INVITE_CODE_KEY := c];
      if viewer.Anonymous? then
        RegisterOutcome(Redirect(Home), stored, [Notify(InvitedSignIn)])
      else if !viewer.profile.isVouched then
        var effects := [CallRedeemInvite(viewer.username, Some(stored[INVITE_CODE_KEY]))];
        assert effects[0].CallRedeemInvite?;
        RegisterOutcome(Redirect(Home), stored, effects)
      else
        RegisterOutcome(Redirect(Home), stored, [])
  }

  /** An invitee who follows the invite link before signing in has the code
      kept; saving the registration section afterwards redeems exactly that code. */
  lemma InviteLinkThenRegistration(code: string, session: map<string, string>,
                                   order: seq<Section>, username: string, editUrl: Utils.Url)
    requires forall s: Section :: s in order
    ensures var kept := Register(Anonymous, Some(code), session).session;
      var req := ProfileViews.EditRequest({"registration_section"},
                                          if INVITE_CODE_KEY in kept then Some(kept[INVITE_CODE_KEY]) else None,
                                          None);
      var o := ProfileViews.EditProfile(order, req, username, username, {UserForm, RegistrationForm}, editUrl);
      CallsRedeemInvite(o.effects) && o.effects[|o.effects| - 1] == CallRedeemInvite(username, Some(code))
  {
    var post: set<string> := {"registration_section"};
    assert ProfileViews.SectionKey(RegistrationSection) in post;
    forall t: Section | ProfileViews.SectionKey(t) in post ensures t == RegistrationSection {
      ProfileViews.SectionKeyInjective(t, RegistrationSection);
    }
    ProfileViews.OnlyPostedSection(order, post, RegistrationSection);
  }
}

=== FILE: phonebook.dfy ===
/** The request-level vocabulary shared by the phonebook views: the parts of
    a profile the views consult, who is asking, where a response sends the
    browser, and the calls a view makes into code outside this model
    (vouching, invite redemption, form saving, invite mail). Views are pure
    functions from a request and the abstract state they read to an Outcome. */
module Phonebook {
  import opened Results
  import Utils

  /** Privacy levels a profile field can carry, most public first. */
  datatype PrivacyLevel = Public | Mozillians | Employees | Privileged

  /** What the views read of a profile. `hasPublicFields` says whether the
      profile shows up in the public query set; `isVouched` and `canVouch` are
      maintained by the vouch ledger, which is not part of this model. */
  datatype Profile = Profile(
    fullName: string,
    isVouched: bool,
    canVouch: bool,
    hasPublicFields: bool,
    privacyLevel: PrivacyLevel)

  /** A profile is complete once its full name is filled in. This is the test
      `view_profile` applies to other members' profiles; `login` asks
      `UserProfile.is_complete`, whose definition is not part of this model and
      is taken to be the same test. */
  predicate IsComplete(p: Profile) {
    p.fullName != ""
  }

  /** The user behind a request. */
  datatype Viewer =
    | Anonymous
    | Member(username: string, profile: Profile, isSuperuser: bool)

  /** Named routes a view redirects to. */
  datatype Route = Home | ProfileEdit | ProfileView(username: string) | InviteList

  /** The sections of the profile-edit page, each posted under its own key. */
  datatype Section =
    | RegistrationSection | BasicSection | GroupsSection | SkillsSection
    | EmailSection | LanguagesSection | AccountsSection | IrcSection
    | LocationSection | ContributionSection | TshirtSection | DeveloperSection

  /** The forms and formsets of the profile-edit page. */
  datatype Form =
    | UserForm | RegistrationForm | BasicInformationForm | GroupsPrivacyForm
    | SkillsForm | EmailPrivacyForm | AlternateEmailFormset | LanguagePrivacyForm
    | LanguageFormset | AccountsFormset | IrcForm | LocationForm
    | ContributionForm | TshirtForm | DeveloperForm

  /** Flash messages whose presence carries meaning. */
  datatype Notice =
    | LoginNeeded
    | GetVouchedNeeded
    | ThanksForVouching
    | UsernameChanged
    | VouchedUser
    | NotVouched(limit: nat)
    | UnvouchedUser
    | InviteSent(recipient: string)
    | InviteRevoked(recipient: string)
    | InvitedSignIn

  /** Calls into code outside this model, with the arguments the view passes. */
  datatype Effect =
    | CallVouch(vouchee: string, voucher: Option<string>, description: string, autovouch: bool)
    | CallRedeemInvite(redeemer: string, code: Option<string>)
    | SaveForm(form: Form)
    | SendInvite(sender: string, recipient: string, personalMessage: string)
    | Notify(notice: Notice)

  /** The data a rendered page is built from, as far as the views decide it. */
  datatype Page =
    | ProfilePage(username: string, privacyMode: Option<string>, privacyLevel: Option<PrivacyLevel>,
                  vouchFormShown: bool, showPendingGroups: bool)
    | EditProfilePage(boundForms: set<Form>, formsValid: bool)
    | SearchPage(pageNumber: Option<nat>, showPagination: bool, publicOnly: bool)
    | LocationPage(shownPage: nat, showPagination: bool)
    | InvitePage(formsShown: bool)

  datatype Response =
    | Redirect(to: Route)
    | RedirectUrl(url: Utils.ParamsUrl)
    /** Sent to log in first, coming back afterwards. */
    | LoginRedirect(loginUrl: Route)
    | NotFound
    | MethodNotAllowed
    | Render(page: Page)

  datatype Outcome = Outcome(response: Response, effects: seq<Effect>)

  predicate CallsVouch(effects: seq<Effect>) {
    exists i :: 0 <= i < |effects| && effects[i].CallVouch?
  }

  predicate CallsRedeemInvite(effects: seq<Effect>) {
    exists i :: 0 <= i < |effects| && effects[i].CallRedeemInvite?
  }
}

=== FILE: profile_views.dfy ===
/** The login, view-profile and edit-profile views: where login sends a
    member, who may see another member's profile, and which edit-profile
    forms receive the posted data and when an invite is redeemed. */
module ProfileViews {
  import opened Results
  import opened Phonebook
  import Utils

  // ---------------------------------------------------------------------
  // login
  // ---------------------------------------------------------------------

  /** After logging in, a member with a complete profile goes home and any
      other member goes to the profile editor. */
  function Login(profile: Profile): (to: Route)
    ensures to == Home <==> IsComplete(profile)
    ensures to == Home || to == ProfileEdit
  {
    if IsComplete(profile) then Home else ProfileEdit
  }

  /** Where login sends a member does not depend on whether they are vouched:
      a vouched member with an empty full name still lands on the editor. */
  lemma LoginIgnoresVouching(p: Profile, vouched: bool)
    ensures Login(p.(isVouched := vouched)) == Login(p)
    ensures p.fullName == "" ==> Login(p.(isVouched := true)) == ProfileEdit
  {
  }

  // ---------------------------------------------------------------------
  // view_profile
  // ---------------------------------------------------------------------

  /** The `view_as` value naming each privacy level. */
  function ViewAsName(level: PrivacyLevel): string {
    match level
    case Public => "anonymous"
    case Mozillians => "mozillian"
    case Employees => "employee"
    case Privileged => "privileged"
  }

  /** The privacy level a member previews their own profile at; "myself" and
      any unknown name mean no restriction (None). */
  function ViewAsLevel(viewAs: string): (r: Option<PrivacyLevel>)
    ensures r.Some? ==> ViewAsName(r.value) == viewAs
    ensures (forall l: PrivacyLevel :: ViewAsName(l) != viewAs) ==> r.None?
  {
    if viewAs == "anonymous" then Some(Public)
    else if viewAs == "mozillian" then Some(Mozillians)
    else if viewAs == "employee" then Some(Employees)
    else if viewAs == "privileged" then Some(Privileged)
    else None
  }

  /** Every level can be previewed by its name. */
  lemma ViewAsRoundTrip(level: PrivacyLevel)
    ensures ViewAsLevel(ViewAsName(level)) == Some(level)
  {
  }

  /** What a POSTed vouch form on another member's profile carries. */
  datatype VouchPost = NoVouchPost | VouchPosted(valid: bool, description: string)

  predicate IsOwnProfile(viewer: Viewer, username: string) {
    viewer.Member? && viewer.username == username
  }

  predicate PublicProfileExists(target: Option<Profile>) {
    target.Some? && target.value.hasPublicFields
  }

  /** Another member's profile may be looked at when some of it is public or
      the viewer is a vouched member. */
  predicate MayViewOthers(viewer: Viewer, target: Option<Profile>) {
    PublicProfileExists(target) || (viewer.Member? && viewer.profile.isVouched)
  }

  /** `view_profile(request, username)`. `target` is the stored profile of
      `username`, if any; `vouchable` is what the profile's `is_vouchable`
      answers for the viewer, which this model leaves abstract. */
  function ViewProfile(viewer: Viewer, username: string, viewAs: Option<string>,
                       target: Option<Profile>, vouchable: bool, post: VouchPost): (o: Outcome)
    // access to another member's profile
    ensures !IsOwnProfile(viewer, username) && !PublicProfileExists(target) && viewer.Anonymous? ==>
      o.response == LoginRedirect(Home)
    ensures (!IsOwnProfile(viewer, username) && !PublicProfileExists(target) && viewer.Member?
             && !viewer.profile.isVouched) ==> o.response == Redirect(Home)
    ensures (!IsOwnProfile(viewer, username) && MayViewOthers(viewer, target)
             && (target.None? || !IsComplete(target.value))) ==> o == Outcome(NotFound, [])
    ensures o.response.NotFound? ==> target.None? || !IsComplete(target.value)
    ensures o.response.Render? && !IsOwnProfile(viewer, username) ==>
      MayViewOthers(viewer, target) && target.Some? && IsComplete(target.value)
    // the only calls are the vouch and its notice
    ensures o.response.Render? ==> o.effects == []
    ensures o.response.LoginRedirect? ==> o.effects == [Notify(LoginNeeded)]
    ensures o.response == Redirect(Home) ==> o.effects == [Notify(GetVouchedNeeded)]
    ensures CallsVouch(o.effects) ==> o.effects == [o.effects[0], Notify(ThanksForVouching)]
    // who gets the page
    ensures o.response.Render? ==> o.response.page.ProfilePage? && o.response.page.username == username
    ensures o.response.Render? ==>
      o.response.page.privacyMode == (if IsOwnProfile(viewer, username) then Some(viewAs.GetOr("myself")) else None)
    ensures IsOwnProfile(viewer, username) ==> o.response.Render?
    ensures (!IsOwnProfile(viewer, username) && MayViewOthers(viewer, target)
             && target.Some? && IsComplete(target.value) && !CallsVouch(o.effects)) ==> o.response.Render?
    // vouching from the profile page
    ensures CallsVouch(o.effects) <==>
      && !IsOwnProfile(viewer, username) && MayViewOthers(viewer, target)
      && target.Some? && IsComplete(target.value)
      && viewer.Member? && vouchable && post.VouchPosted? && post.valid
    ensures CallsVouch(o.effects) ==>
      o.effects[0] == CallVouch(username, Some(viewer.username), post.description, false)
      && o.response == Redirect(ProfileView(username))
    // what the rendered page shows
    ensures o.response.Render? ==>
      && o.response.page.ProfilePage?
      && (o.response.page.showPendingGroups <==>
            viewer.Member? && (viewer.username == username || viewer.isSuperuser))
    ensures o.response.Render? && !IsOwnProfile(viewer, username) ==>
      o.response.page.privacyLevel ==
        (if viewer.Anonymous? then Some(Public) else Some(viewer.profile.privacyLevel))
    ensures o.response.Render? && IsOwnProfile(viewer, username) ==>
      o.response.page.privacyLevel == ViewAsLevel(viewAs.GetOr("myself"))
    ensures o.response.Render? ==>
      (o.response.page.vouchFormShown <==>
         !IsOwnProfile(viewer, username) && viewer.Member? && vouchable)
  {
    if IsOwnProfile(viewer, username) then
      var mode := viewAs.GetOr("myself");
      Outcome(Render(ProfilePage(username, Some(mode), ViewAsLevel(mode), false, true)), [])
    else if !PublicProfileExists(target) && viewer.Anonymous? then
      Outcome(LoginRedirect(Home), [Notify(LoginNeeded)])
    else if !PublicProfileExists(target) && !viewer.profile.isVouched then
      Outcome(Redirect(Home), [Notify(GetVouchedNeeded)])
    else if target.None? || !IsComplete(target.value) then
      Outcome(NotFound, [])
    else
      var level := if viewer.Anonymous? then Public else viewer.profile.privacyLevel;
      var offerVouch := viewer.Member? && vouchable;
      if offerVouch && post.VouchPosted? && post.valid then
        var effects := [CallVouch(username, Some(viewer.username), post.description, false),
                        Notify(ThanksForVouching)];
        assert effects[0].CallVouch?;
        Outcome(Redirect(ProfileView(username)), effects)
      else
        var pending := viewer.Member? && viewer.isSuperuser;
        Outcome(Render(ProfilePage(username, None, Some(level), offerVouch, pending)), [])
  }

  /** A profile that does not exist at all has no public version either, so an
      anonymous visitor is asked to log in rather than told it is missing. */
  lemma MissingProfileAsksAnonymousToLogIn(username: string, viewAs: Option<string>,
                                           vouchable: bool, post: VouchPost)
    ensures ViewProfile(Anonymous, username, viewAs, None, vouchable, post).response == LoginRedirect(Home)
  {
  }

  // ---------------------------------------------------------------------
  // edit_profile
  // ---------------------------------------------------------------------

  /** The POST key that selects each section. */
  function SectionKey(s: Section): string {
    match s
    case RegistrationSection => "registration_section"
    case BasicSection => "basic_section"
    case GroupsSection => "groups_section"
    case SkillsSection => "skills_section"
    case EmailSection => "email_section"
    case LanguagesSection => "languages_section"
    case AccountsSection => "accounts_section"
    case IrcSection => "irc_section"
    case LocationSection => "location_section"
    case ContributionSection => "contribution_section"
    case TshirtSection => "tshirt_section"
    case DeveloperSection => "developer_section"
  }

  /** The section a POST key selects, if any. */
  function SectionNamed(key: string): (r: Option<Section>)
    ensures r.Some? ==> SectionKey(r.value) == key
  {
    if key == "registration_section" then Some(RegistrationSection)
    else if key == "basic_section" then Some(BasicSection)
    else if key == "groups_section" then Some(GroupsSection)
    else if key == "skills_section" then Some(SkillsSection)
    else if key == "email_section" then Some(EmailSection)
    else if key == "languages_section" then Some(LanguagesSection)
    else if key == "accounts_section" then Some(AccountsSection)
    else if key == "irc_section" then Some(IrcSection)
    else if key == "location_section" then Some(LocationSection)
    else if key == "contribution_section" then Some(ContributionSection)
    else if key == "tshirt_section" then Some(TshirtSection)
    else if key == "developer_section" then Some(DeveloperSection)
    else None
  }

  /** Each section is recognised by its key, so no two sections share one. */
  lemma SectionKeyRoundTrip(s: Section)
    ensures SectionNamed(SectionKey(s)) == Some(s)
  {
  }

  lemma SectionKeyInjective(s: Section, t: Section)
    ensures SectionKey(s) == SectionKey(t) ==> s == t
  {
    SectionKeyRoundTrip(s);
    SectionKeyRoundTrip(t);
  }

  /** The forms a section is made of, in the order they are saved. */
  function SectionForms(s: Section): seq<Form> {
    match s
    case RegistrationSection => [UserForm, RegistrationForm]
    case BasicSection => [UserForm, BasicInformationForm]
    case GroupsSection => [GroupsPrivacyForm]
    case SkillsSection => [SkillsForm]
    case EmailSection => [EmailPrivacyForm, AlternateEmailFormset]
    case LanguagesSection => [LanguagePrivacyForm, LanguageFormset]
    case AccountsSection => [AccountsFormset]
    case IrcSection => [IrcForm]
    case LocationSection => [LocationForm]
    case ContributionSection => [ContributionForm]
    case TshirtSection => [TshirtForm]
    case DeveloperSection => [DeveloperForm]
  }

  /** The posted section: the first section, in the dictionary's iteration
      order `order`, whose key is among the POST keys. Python 2 does not fix
      that order, so when several section keys are posted the choice among
      them is left to `order`. */
  function CurrentSection(order: seq<Section>, post: set<string>): (r: Option<Section>)
    ensures r.Some? ==> r.value in order && SectionKey(r.value) in post
    ensures r.Some? ==>
      exists i :: (0 <= i < |order| && order[i] == r.value &&
                   forall j :: 0 <= j < i ==> SectionKey(order[j]) !in post)
    ensures r.None? <==> forall i :: 0 <= i < |order| ==> SectionKey(order[i]) !in post
  {
    if |order| == 0 then None
    else if SectionKey(order[0]) in post then
      Some(order[0])
    else
      var r := CurrentSection(order[1..], post);
      if r.Some? then
        var i :| 0 <= i < |order[1..]| && order[1..][i] == r.value &&
          forall j :: 0 <= j < i ==> SectionKey(order[1..][j]) !in post;
        assert order[i + 1] == r.value;
        r
      else
        assert forall i :: 1 <= i < |order| ==> order[i] == order[1..][i - 1];
        r
  }

  /** When exactly one section key is posted, that section is the posted one,
      whatever the dictionary order. */
  lemma OnlyPostedSection(order: seq<Section>, post: set<string>, s: Section)
    requires forall t: Section :: t in order
    requires SectionKey(s) in post && forall t: Section :: SectionKey(t) in post ==> t == s
    ensures CurrentSection(order, post) == Some(s)
  {
    var r := CurrentSection(order, post);
    assert s in order;
    var i :| 0 <= i < |order| && order[i] == s;
    assert SectionKey(order[i]) in post;
  }

  /** The effects of a valid POST of section `s`: each of its forms saved in
      order, then either the invite redemption (registration only) or the
      username-change notice. */
  function SaveSection(s: Section, username: string, usernameAfterSave: string,
                       sessionCode: Option<string>): (effects: seq<Effect>)
    ensures forall i :: 0 <= i < |effects| && effects[i].SaveForm? ==> effects[i].form in SectionForms(s)
    ensures |SectionForms(s)| <= |effects|
    ensures forall i :: 0 <= i < |SectionForms(s)| ==> effects[i] == SaveForm(SectionForms(s)[i])
    ensures CallsRedeemInvite(effects) <==> s == RegistrationSection
    ensures CallsRedeemInvite(effects) ==>
      effects[|effects| - 1] == CallRedeemInvite(username, sessionCode)
    // at most one call follows the saves; the notice comes exactly on a rename
    ensures |effects| == |SectionForms(s)| + (if s == RegistrationSection || usernameAfterSave != username then 1 else 0)
    ensures s != RegistrationSection && usernameAfterSave != username ==>
      effects[|effects| - 1] == Notify(UsernameChanged)
  {
    var forms := SectionForms(s);
    var saves := seq(|forms|, i requires 0 <= i < |forms| => SaveForm(forms[i]));
    var after :=
      if s == RegistrationSection then [CallRedeemInvite(username, sessionCode)]
      else if usernameAfterSave != username then [Notify(UsernameChanged)]
      else [];
    var effects := saves + after;
    assert forall i :: 0 <= i < |saves| ==> effects[i] == saves[i];
    assert forall i :: |saves| <= i < |effects| ==> effects[i] == after[i - |saves|];
    assert s == RegistrationSection ==> effects[|effects| - 1].CallRedeemInvite?;
    effects
  }

  /** Every form a valid save of posted section `s` writes belongs to a posted
      section all of whose forms are valid. */
  lemma SavedFormsArePosted(post: set<string>, s: Section, validForms: set<Form>,
                            username: string, usernameAfterSave: string, sessionCode: Option<string>)
    requires SectionKey(s) in post && forall f :: f in SectionForms(s) ==> f in validForms
    ensures var effects := SaveSection(s, username, usernameAfterSave, sessionCode);
      forall i :: 0 <= i < |effects| && effects[i].SaveForm? ==>
        exists t: Section :: SectionKey(t) in post && effects[i].form in SectionForms(t) &&
          forall f :: f in SectionForms(t) ==> f in validForms
  {
  }

  /** What an edit-profile request carries: the POST keys, the invite code kept
      in the session, and the `next` query parameter. */
  datatype EditRequest = EditRequest(post: set<string>, sessionCode: Option<string>, next: Option<string>)

  /** `edit_profile(request)`. `order` is the iteration order of the sections
      dictionary; `validForms` the forms whose validation passes and
      `usernameAfterSave` the username once the forms are saved, both decided
      by form code outside this model; `editUrl` is the editor's own URL. */
  function EditProfile(order: seq<Section>, req: EditRequest, username: string,
                       usernameAfterSave: string, validForms: set<Form>, editUrl: Utils.Url): (o: Outcome)
    requires forall s: Section :: s in order
    // a POST must name a section
    ensures req.post != {} && (forall s: Section :: SectionKey(s) !in req.post) ==> o == Outcome(NotFound, [])
    ensures o.response.NotFound? ==> req.post != {}
    // only the posted section's forms see the POST data
    ensures o.response.Render? ==>
      && o.response.page.EditProfilePage?
      && forall f :: f in o.response.page.boundForms ==>
           exists s: Section :: SectionKey(s) in req.post && f in SectionForms(s)
    ensures o.response.Render? ==> forall s: Section ::
      SectionKey(s) in req.post && (forall t: Section :: SectionKey(t) in req.post ==> t == s) ==>
        o.response.page.boundForms == set f | f in SectionForms(s)
    ensures req.post == {} ==> o == Outcome(Render(EditProfilePage({}, true)), [])
    // the posted section is saved exactly when all its forms are valid
    ensures req.post != {} && CurrentSection(order, req.post).Some? ==>
      var s := CurrentSection(order, req.post).value;
      if forall f :: f in SectionForms(s) ==> f in validForms then
        o.response.RedirectUrl? && o.effects == SaveSection(s, username, usernameAfterSave, req.sessionCode)
      else
        o == Outcome(Render(EditProfilePage(set f | f in SectionForms(s), false)), [])
    // saving and redemption
    ensures forall i :: 0 <= i < |o.effects| && o.effects[i].SaveForm? ==>
      exists s: Section :: SectionKey(s) in req.post && o.effects[i].form in SectionForms(s) &&
        forall f :: f in SectionForms(s) ==> f in validForms
    ensures CallsRedeemInvite(o.effects) <==>
      && req.post != {} && CurrentSection(order, req.post) == Some(RegistrationSection)
      && UserForm in validForms && RegistrationForm in validForms
    ensures CallsRedeemInvite(o.effects) ==>
      o.effects[|o.effects| - 1] == CallRedeemInvite(username, req.sessionCode)
    ensures o.response.RedirectUrl? ==>
      o.response.url.path == editUrl.path &&
      (req.next.Some? ==> o.response.url.fragment == req.next.value)
  {
    var curr := CurrentSection(order, req.post);
    if req.post == {} then
      Outcome(Render(EditProfilePage({}, true)), [])
    else if curr.None? then
      assert forall t: Section :: SectionKey(t) !in req.post by {
        forall t: Section ensures SectionKey(t) !in req.post {
          assert t in order;
          var i :| 0 <= i < |order| && order[i] == t;
        }
      }
      Outcome(NotFound, [])
    else
      var s := curr.value;
      var forms := SectionForms(s);
      var bound := set f | f in forms;
      assert forall t: Section ::
        (SectionKey(t) in req.post && (forall u: Section :: SectionKey(u) in req.post ==> u == t)) ==> t == s;
      if !(forall f :: f in forms ==> f in validForms) then
        Outcome(Render(EditProfilePage(bound, false)), [])
      else
        // `urlparams(url, next)` passes `next` as the fragment argument.
        SavedFormsArePosted(req.post, s, validForms, username, usernameAfterSave, req.sessionCode);
        Outcome(RedirectUrl(Utils.UrlParams(editUrl, req.next, map[])),
                SaveSection(s, username, usernameAfterSave, req.sessionCode))
  }
}

=== FILE: results.dfy ===
/** Option and Result types for the error paths of the model: a Python
    `None`, a raised exception or an HTTP 404 becomes a value here. */
module Results {

  datatype Option<+T> = None | Some(value: T) {

    /** The wrapped value, or `default` when there is none (Python's `d.get(k, default)`). */
    function GetOr(default: T): T {
      match this
      case Some(v) => v
      case None => default
    }
  }

  datatype Result<+T, +E> = Ok(value: T) | Err(error: E)
}

=== FILE: search_views.dfy ===
/** The listing views (`search`, `betasearch`, `list_mozillians_in_location`):
    which page of results is shown for the `page` parameter, when the
    pagination bar appears, and when search jumps straight to a profile.
    The search backends and the paginator's slicing are left abstract:
    `search` and `betasearch` receive the number of matches and the number of
    pages, and the location list receives the number of matches and counts the
    pages itself with `NumPages`. */
module SearchViews {
  import opened Results
  import opened Phonebook
  import Settings

  /** The `page` query parameter: absent (read as 1), an integer, or text
      `int()` rejects. */
  datatype PageParam = Absent | Integer(n: int) | NotAnInteger

  /** The page a listing shows: a non-integer gives the first page and a
      number outside 1..numPages gives the last page. A paginator always has
      at least one page. */
  function PageToShow(param: PageParam, numPages: nat): (p: nat)
    requires numPages >= 1
    ensures 1 <= p <= numPages
    ensures param.Absent? || param.NotAnInteger? ==> p == 1
    ensures param.Integer? && 1 <= param.n <= numPages ==> p == param.n
    ensures param.Integer? && !(1 <= param.n <= numPages) ==> p == numPages
  {
    match param
    case Absent => 1
    case NotAnInteger => 1
    case Integer(n) => if 1 <= n <= numPages then n else numPages
  }

  /** A requested page is honoured exactly when it exists, so the page shown,
      requested again, is shown again. */
  lemma PageToShowHonoursExactlyValidPages(n: int, numPages: nat)
    requires numPages >= 1
    ensures PageToShow(Integer(n), numPages) == n <==> 1 <= n <= numPages
    ensures PageToShow(Integer(PageToShow(Integer(n), numPages)), numPages) == PageToShow(Integer(n), numPages)
  {
  }

  /** Whether the pagination bar is shown for `count` matches. */
  function ShowPagination(count: nat): bool {
    count > Settings.ITEMS_PER_PAGE
  }

  /** The paginator's page count with the first page allowed to be empty. */
  function NumPages(count: nat, perPage: nat): (pages: nat)
    requires perPage >= 1
    ensures pages >= 1
    ensures count == 0 ==> pages == 1
    ensures count > 0 ==> (pages - 1) * perPage < count <= pages * perPage
  {
    if count <= perPage then 1 else 1 + NumPages(count - perPage, perPage)
  }

  /** In the location list, whose page size is `ITEMS_PER_PAGE`, the bar is
      shown exactly when there is more than one page. */
  lemma LocationPaginationMeansSeveralPages(count: nat)
    ensures ShowPagination(count) <==> NumPages(count, Settings.ITEMS_PER_PAGE) > 1
  {
  }

  /** The search form: invalid, or valid with a page size and a page parameter. */
  datatype SearchForm = InvalidSearch | ValidSearch(limit: nat, page: PageParam)

  /** Search pages by the form's `limit` but decides the bar by
      `ITEMS_PER_PAGE`, so the two can disagree: 20 matches at 10 a page make
      two pages and no bar, 30 matches at 50 a page make one page and a bar. */
  lemma SearchPaginationIgnoresLimit(viewer: Viewer, page: PageParam, firstMatch: string)
    ensures var o := Search(viewer, ValidSearch(10, page), 20, NumPages(20, 10), false, firstMatch);
      NumPages(20, 10) == 2 && o.response.Render? && !o.response.page.showPagination
    ensures var o := Search(viewer, ValidSearch(50, page), 30, NumPages(30, 50), false, firstMatch);
      NumPages(30, 50) == 1 && o.response.Render? && o.response.page.showPagination
  {
    assert NumPages(10, 10) == 1;
  }

  /** Only profiles with public fields are searched unless the viewer is a vouched member. */
  predicate SearchesPublicOnly(viewer: Viewer) {
    !(viewer.Member? && viewer.profile.isVouched)
  }

  /** `search(request)`. `count` matches were found, spread over `numPages`
      pages; `groupsFound` says whether the group search (run only for vouched
      members) found any group; `firstMatch` is the only match's username. */
  function Search(viewer: Viewer, form: SearchForm, count: nat, numPages: nat,
                  groupsFound: bool, firstMatch: string): (o: Outcome)
    requires numPages >= 1
    ensures form.InvalidSearch? ==> o == Outcome(Render(SearchPage(None, false, false)), [])
    ensures o.response.Redirect? <==>
      form.ValidSearch? && count == 1 && (SearchesPublicOnly(viewer) || !groupsFound)
    ensures o.response.Redirect? ==> o.response.to == ProfileView(firstMatch)
    ensures form.ValidSearch? && !o.response.Redirect? ==> o.response.Render?
    ensures form.ValidSearch? && o.response.Render? ==>
      && o.response.page.SearchPage?
      && o.response.page.pageNumber == Some(PageToShow(form.page, numPages))
      && (o.response.page.showPagination <==> count > Settings.ITEMS_PER_PAGE)
      && (o.response.page.publicOnly <==> SearchesPublicOnly(viewer))
    ensures o.effects == []
  {
    if form.InvalidSearch? then Outcome(Render(SearchPage(None, false, false)), [])
    else
      var publicOnly := SearchesPublicOnly(viewer);
      var page := PageToShow(form.page, numPages);
      // Groups are looked up only for vouched members; `not groups` holds otherwise.
      var noGroups := publicOnly || !groupsFound;
      if count == 1 && noGroups then Outcome(Redirect(ProfileView(firstMatch)), [])
      else Outcome(Render(SearchPage(Some(page), ShowPagination(count), publicOnly)), [])
  }

  /** `betasearch(request)`: like search, without groups and without the jump
      to a single match. */
  function BetaSearch(viewer: Viewer, form: SearchForm, count: nat, numPages: nat): (o: Outcome)
    requires numPages >= 1
    ensures o.response.Render? && o.effects == []
    ensures form.InvalidSearch? ==> o.response.page == SearchPage(None, false, false)
    ensures form.ValidSearch? ==>
      && o.response.page.SearchPage?
      && o.response.page.pageNumber == Some(PageToShow(form.page, numPages))
      && (o.response.page.showPagination <==> count > Settings.ITEMS_PER_PAGE)
      && (o.response.page.publicOnly <==> SearchesPublicOnly(viewer))
  {
    if form.InvalidSearch? then Outcome(Render(SearchPage(None, false, false)), [])
    else
      Outcome(Render(SearchPage(Some(PageToShow(form.page, numPages)), ShowPagination(count),
                                SearchesPublicOnly(viewer))), [])
  }

  /** Whenever search does not jump to a profile it shows the same page beta
      search shows for the same form, matches and pages. */
  lemma SearchAgreesWithBetaSearch(viewer: Viewer, form: SearchForm, count: nat, numPages: nat,
                                   groupsFound: bool, firstMatch: string)
    requires numPages >= 1
    ensures !Search(viewer, form, count, numPages, groupsFound, firstMatch).response.Redirect? ==>
      Search(viewer, form, count, numPages, groupsFound, firstMatch) == BetaSearch(viewer, form, count, numPages)
    ensures Search(viewer, form, count, numPages, groupsFound, firstMatch).response.Redirect? ==>
      form.ValidSearch? && count == 1
  {
  }

  /** `list_mozillians_in_location(request, ...)`: vouched members in a place,
      `ITEMS_PER_PAGE` to a page. */
  function LocationList(page: PageParam, count: nat): (o: Outcome)
    ensures o.response.Render? && o.response.page.LocationPage? && o.effects == []
    ensures var pages := NumPages(count, Settings.ITEMS_PER_PAGE);
      1 <= o.response.page.shownPage <= pages &&
      (page.Integer? && 1 <= page.n <= pages ==> o.response.page.shownPage == page.n) &&
      (page.Integer? && !(1 <= page.n <= pages) ==> o.response.page.shownPage == pages) &&
      (!page.Integer? ==> o.response.page.shownPage == 1)
    ensures o.response.page.showPagination <==> NumPages(count, Settings.ITEMS_PER_PAGE) > 1
  {
    LocationPaginationMeansSeveralPages(count);
    var pages := NumPages(count, Settings.ITEMS_PER_PAGE);
    Outcome(Render(LocationPage(PageToShow(page, pages), ShowPagination(count))), [])
  }
}

=== FILE: settings.dfy ===
/** The trust, paging and locale constants of the project's base settings,
    and the two settings helpers that compute values from other settings:
    the lower-cased language URL map and the allowed-hosts list. */
module Settings {
  import opened Results
  import opened Text

  /** Largest number of vouches a profile is meant to hold (bug 997400). */
  const VOUCH_COUNT_LIMIT: nat := 6

  /** Vouches a profile must hold before it may vouch for or invite others. */
  const CAN_VOUCH_THRESHOLD: nat := 3

  /** E-mail domains whose owners are vouched automatically, and the reason recorded. */
  const AUTO_VOUCH_DOMAINS: seq<string> := ["mozilla.com", "mozilla.org", "mozillafoundation.org"]
  const AUTO_VOUCH_REASON: string := "An automatic vouch for being a Mozilla employee."

  /** Page size of the location list and the threshold for showing pagination. */
  const ITEMS_PER_PAGE: nat := 24

  const LANGUAGE_CODE: string := "en-US"
  const DEV: bool := false
  const DEV_LANGUAGES: Option<seq<string>> := None
  const PROD_LANGUAGES: seq<string> :=
    ["ca", "cs", "de", "en-US", "en-GB", "es", "hu", "fr", "it", "ko",
     "nl", "pl", "pt-BR", "ro", "ru", "sk", "sl", "sq", "sr", "sv-SE", "zh-TW",
     "zh-CN", "lt", "ja", "hsb", "dsb", "uk"]

  /** Scheme and port used by `absolutify` when no site URL is configured. */
  const PROTOCOL: string := "https://"
  const PORT: int := 443

  /** The vouch cap and the vouching threshold: a member can reach the number
      of vouches needed to vouch for others while still below the cap. */
  lemma TrustConstants()
    ensures VOUCH_COUNT_LIMIT == 6 && CAN_VOUCH_THRESHOLD == 3
    ensures 0 < CAN_VOUCH_THRESHOLD < VOUCH_COUNT_LIMIT
  {
  }

  /** Exactly three e-mail domains earn an automatic vouch, with a fixed reason. */
  lemma AutoVouchSettings()
    ensures |AUTO_VOUCH_DOMAINS| == 3
    ensures forall d :: d in AUTO_VOUCH_DOMAINS <==> d in {"mozilla.com", "mozilla.org", "mozillafoundation.org"}
    ensures AUTO_VOUCH_REASON != ""
  {
  }

  /** Listings show 24 profiles to a page. */
  lemma PageSize()
    ensures ITEMS_PER_PAGE == 24
  {
  }

  datatype SettingsError =
    /** Iterating `DEV_LANGUAGES` when it is `None` raises a TypeError. */
    | LanguagesNotIterable

  /** `dict([(i.lower(), i) for i in langs])`: later entries win on a clash. */
  function LowerKeyed(langs: seq<string>): (m: map<string, string>)
    ensures forall i :: 0 <= i < |langs| ==> Lower(langs[i]) in m
    ensures forall k :: k in m ==> Lower(m[k]) == k && m[k] in langs
  {
    if |langs| == 0 then map[]
    else
      var last := langs[|langs| - 1];
      var prev := LowerKeyed(langs[..|langs| - 1]);
      assert forall i :: 0 <= i < |langs| - 1 ==> langs[..|langs| - 1][i] == langs[i];
      prev[Lower(last) := last]
  }

  /** The map from lower-cased language codes in URLs to the configured codes,
      drawn from the development list in DEV mode and the production list otherwise. */
  function LangUrlMap(dev: bool, devLanguages: Option<seq<string>>, prodLanguages: seq<string>)
    : (r: Result<map<string, string>, SettingsError>)
    ensures r.Err? <==> dev && devLanguages.None?
    ensures r.Ok? ==> forall k :: k in r.value ==>
      Lower(r.value[k]) == k && r.value[k] in (if dev then devLanguages.value else prodLanguages)
    ensures r.Ok? ==> forall c :: c in (if dev then devLanguages.value else prodLanguages) ==>
      Lower(c) in r.value
  {
    if dev then
      match devLanguages
      case None => Err(LanguagesNotIterable)
      case Some(langs) => Ok(LowerKeyed(langs))
    else Ok(LowerKeyed(prodLanguages))
  }

  predicate DistinctLower(langs: seq<string>) {
    forall i, j :: 0 <= i < j < |langs| ==> Lower(langs[i]) != Lower(langs[j])
  }

  /** When no two codes differ only in case, each lower-cased code maps back to exactly its code. */
  lemma {:induction false} LowerKeyedMapsBack(langs: seq<string>)
    requires DistinctLower(langs)
    ensures forall c :: c in langs ==> LowerKeyed(langs)[Lower(c)] == c
  {
    if |langs| > 0 {
      var init := langs[..|langs| - 1];
      var last := langs[|langs| - 1];
      assert DistinctLower(init) by {
        forall i, j | 0 <= i < j < |init|
          ensures Lower(init[i]) != Lower(init[j])
        {
          assert init[i] == langs[i] && init[j] == langs[j];
        }
      }
      LowerKeyedMapsBack(init);
      forall c | c in langs
        ensures LowerKeyed(langs)[Lower(c)] == c
      {
        if c != last {
          var i :| 0 <= i < |langs| && langs[i] == c;
          assert i < |langs| - 1;
          assert c in init by { assert init[i] == c; }
          assert Lower(c) != Lower(last);
        }
      }
    }
  }

  /** The production codes as they appear in URLs. */
  ghost const PROD_URL_CODES: seq<string> :=
    ["ca", "cs", "de", "en-us", "en-gb", "es", "hu", "fr", "it", "ko",
     "nl", "pl", "pt-br", "ro", "ru", "sk", "sl", "sq", "sr", "sv-se", "zh-tw",
     "zh-cn", "lt", "ja", "hsb", "dsb", "uk"]

  lemma ProductionCodesLowered()
    ensures |PROD_URL_CODES| == |PROD_LANGUAGES|
    ensures forall i :: 0 <= i < |PROD_LANGUAGES| ==> Lower(PROD_LANGUAGES[i]) == PROD_URL_CODES[i]
  {
    LoweredFrom(0, 9);
    LoweredFrom(9, 18);
    LoweredFrom(18, 27);
  }

  lemma LoweredFrom(lo: nat, hi: nat)
    requires lo <= hi <= |PROD_LANGUAGES| == |PROD_URL_CODES|
    ensures forall i :: lo <= i < hi ==> Lower(PROD_LANGUAGES[i]) == PROD_URL_CODES[i]
  {
    forall i | lo <= i < hi
      ensures Lower(PROD_LANGUAGES[i]) == PROD_URL_CODES[i]
    {
    }
  }

  /** Every production code is at least two characters long. */
  lemma ProductionCodesNonEmpty()
    ensures forall c :: c in PROD_LANGUAGES ==> |c| >= 2
  {
    assert forall i :: 0 <= i < |PROD_LANGUAGES| ==> |PROD_LANGUAGES[i]| >= 2;
  }

  lemma ProductionCodesDistinct()
    ensures forall i, j :: 0 <= i < j < |PROD_URL_CODES| ==> PROD_URL_CODES[i] != PROD_URL_CODES[j]
  {
  }

  /** The production languages never clash once lower-cased, so the deployed
      map sends every lower-cased production code back to that code. */
  lemma ProductionLangUrlMap()
    ensures LangUrlMap(DEV, DEV_LANGUAGES, PROD_LANGUAGES).Ok?
    ensures forall c :: c in PROD_LANGUAGES ==>
      LangUrlMap(DEV, DEV_LANGUAGES, PROD_LANGUAGES).value[Lower(c)] == c
  {
    ProductionCodesLowered();
    ProductionCodesDistinct();
    assert DistinctLower(PROD_LANGUAGES);
    LowerKeyedMapsBack(PROD_LANGUAGES);
  }

  /** `[netloc.rsplit(':', 1)[0]]`: drop the text after the last ':' (the port)
      from the host part of `SITE_URL`; a host without ':' is kept whole. */
  function AllowedHosts(netloc: string): (r: seq<string>)
    ensures |r| == 1
    ensures ':' !in netloc ==> r[0] == netloc
    ensures ':' in netloc ==>
      IsPrefix(r[0] + [':'], netloc) && ':' !in netloc[|r[0]| + 1..]
  {
    match LastIndexOf(netloc, ':')
    case None => [netloc]
    case Some(k) => [netloc[..k]]
  }

  lemma InSliceAt(s: string, a: nat, i: nat, c: char)
    ensures a <= i < |s| && s[i] == c ==> c in s[a..]
  {
    if a <= i < |s| && s[i] == c {
      assert s[a..][i - a] == c;
    }
  }

  /** Appending ":" and a port to a host and dropping it again gives the host
      back, even when the host itself holds ':' (a bracketed IPv6 address). */
  lemma AllowedHostsDropsPort(host: string, port: string)
    requires ':' !in port
    ensures AllowedHosts(host + ":" + port) == [host]
  {
    var netloc := host + ":" + port;
    assert netloc[|host|] == ':';
    assert ':' in netloc;
    match LastIndexOf(netloc, ':')
    case None =>
    case Some(k) =>
      // The ':' after the host is the last one: the port holds none.
      InSliceAt(netloc, k + 1, |host|, ':');
      assert forall j :: |host| < j < |netloc| ==> netloc[j] in port;
      assert netloc[..k] == host;
  }
}

=== FILE: text.dfy ===
/** String helpers shared by the URL, locale and settings models: prefixes
    and suffixes, ASCII lower-casing (Python's `str.lower` on ASCII text),
    and the decimal rendering of integers that Python's `str(int)` performs. */
module Text {
  import opened Results

  predicate IsPrefix(p: string, s: string) {
    |p| <= |s| && s[..|p|] == p
  }

  predicate IsSuffix(t: string, s: string) {
    |t| <= |s| && s[|s| - |t|..] == t
  }

  function LowerChar(c: char): char {
    if 'A' <= c <= 'Z' then (c as int + 32) as char else c
  }

  /** ASCII lower-casing; characters outside 'A'..'Z' are kept. */
  function Lower(s: string): (r: string)
    ensures |r| == |s|
    ensures forall i :: 0 <= i < |s| ==> r[i] == LowerChar(s[i])
  {
    seq(|s|, i requires 0 <= i < |s| => LowerChar(s[i]))
  }

  predicate IsDigit(c: char) {
    '0' <= c <= '9'
  }

  predicate AllDigits(s: string) {
    forall i :: 0 <= i < |s| ==> IsDigit(s[i])
  }

  function DigitChar(d: nat): (c: char)
    requires d < 10
    ensures IsDigit(c)
  {
    (48 + d) as char
  }

  function DigitValue(c: char): (d: nat)
    requires IsDigit(c)
    ensures d < 10
  {
    c as int - 48
  }

  /** `str(n)` for a non-negative integer: no sign, no leading zeros. */
  function NatToDecimal(n: nat): (r: string)
    ensures 1 <= |r|
    ensures AllDigits(r)
    ensures |r| > 1 ==> r[0] != '0'
    decreases n
  {
    if n < 10 then [DigitChar(n)] else NatToDecimal(n / 10) + [DigitChar(n % 10)]
  }

  /** `str(x)` for any integer: a '-' sign in front of the magnitude when negative. */
  function IntToDecimal(x: int): (r: string)
    ensures 1 <= |r|
    ensures x < 0 <==> r[0] == '-'
  {
    if x < 0 then "-" + NatToDecimal(-x) else NatToDecimal(x)
  }

  /** The value of a string of decimal digits (the empty string reads as 0). */
  function ParseNat(s: string): nat
    requires AllDigits(s)
  {
    if |s| == 0 then 0 else ParseNat(s[..|s| - 1]) * 10 + DigitValue(s[|s| - 1])
  }

  /** Reads back what `IntToDecimal` writes: an optional '-' and at least one digit. */
  function ParseInt(s: string): (r: Option<int>)
    ensures r.Some? ==> 1 <= |s|
  {
    if 2 <= |s| && s[0] == '-' && AllDigits(s[1..]) then Some(-(ParseNat(s[1..]) as int))
    else if 1 <= |s| && AllDigits(s) then Some(ParseNat(s))
    else None
  }

  lemma {:induction false} ParseNatOfDecimal(n: nat)
    ensures ParseNat(NatToDecimal(n)) == n
    decreases n
  {
    if n >= 10 {
      var s := NatToDecimal(n);
      assert s[..|s| - 1] == NatToDecimal(n / 10);
      ParseNatOfDecimal(n / 10);
    }
  }

  /** Printing an integer and reading it back gives the integer. */
  lemma IntDecimalRoundTrip(x: int)
    ensures ParseInt(IntToDecimal(x)) == Some(x)
  {
    var s := IntToDecimal(x);
    if x < 0 {
      var m := NatToDecimal(-x);
      assert s[1..] == m;
      assert 2 <= |s| && s[0] == '-' && AllDigits(s[1..]);
      ParseNatOfDecimal(-x);
    } else {
      assert IsDigit(s[0]);
      ParseNatOfDecimal(x);
    }
  }

  /** Index of the last occurrence of `c` in `s` (Python's `s.rfind(c)`, None for -1). */
  function LastIndexOf(s: string, c: char): (r: Option<nat>)
    ensures r.None? <==> c !in s
    ensures r.Some? ==> r.value < |s| && s[r.value] == c && c !in s[r.value + 1..]
  {
    if |s| == 0 then None
    else if s[|s| - 1] == c then Some(|s| - 1)
    else
      var k := LastIndexOf(s[..|s| - 1], c);
      assert s == s[..|s| - 1] + [s[|s| - 1]];
      k
  }
}

=== FILE: utils.dfy ===
/** The sequence and URL helpers of the common utilities: `chunked`,
    `absolutify` and `urlparams`. URL parsing and query encoding are
    library calls; the model works on already-split URL components and on
    decoded query pairs. */
module Utils {
  import opened Results
  import opened Text
  import Settings

  // ---------------------------------------------------------------------
  // chunked
  // ---------------------------------------------------------------------

  datatype ChunkError =
    /** `itertools.islice` refuses a negative stop with a ValueError. */
    | NegativeChunkSize

  /** Concatenation of a sequence of chunks. */
  function Flatten<T>(chunks: seq<seq<T>>): seq<T> {
    if |chunks| == 0 then [] else chunks[0] + Flatten(chunks[1..])
  }

  /** Chunks of one sequence with size `n`: each chunk is non-empty and at most
      `n` long, and every chunk but the last is exactly `n` long. */
  ghost predicate WellChunked<T>(chunks: seq<seq<T>>, n: nat) {
    && (forall k :: 0 <= k < |chunks| ==> 0 < |chunks[k]| <= n)
    && (forall k :: 0 <= k < |chunks| - 1 ==> |chunks[k]| == n)
  }

  /** The chunks the generator yields for a positive size. */
  function Split<T>(s: seq<T>, n: nat): (chunks: seq<seq<T>>)
    requires n >= 1
    ensures Flatten(chunks) == s
    ensures WellChunked(chunks, n)
    ensures |s| <= |chunks| * n < |s| + n
    decreases |s|
  {
    if |s| == 0 then []
    else if |s| <= n then
      assert Flatten([s]) == s + Flatten([s][1..]);
      [s]
    else
      var rest := Split(s[n..], n);
      assert s == s[..n] + s[n..];
      FlattenCons(s[..n], rest);
      WellChunkedCons(s[..n], rest, n);
      [s[..n]] + rest
  }

  lemma FlattenCons<T>(c: seq<T>, rest: seq<seq<T>>)
    ensures Flatten([c] + rest) == c + Flatten(rest)
  {
    assert ([c] + rest)[1..] == rest;
  }

  lemma WellChunkedCons<T>(c: seq<T>, rest: seq<seq<T>>, n: nat)
    requires |c| == n >= 1 && WellChunked(rest, n)
    ensures WellChunked([c] + rest, n)
  {
    var chunks := [c] + rest;
    forall k | 1 <= k < |chunks| ensures chunks[k] == rest[k - 1] { }
  }

  /** A chunk count `k` with `len <= k * n < len + n` is the ceiling of `len / n`. */
  lemma CeilingCount(len: nat, n: nat, k: nat)
    requires n >= 1 && len <= k * n < len + n
    ensures k == (len + n - 1) / n
  {
    var q: int := (len + n - 1) / n;
    var r: int := (len + n - 1) % n;
    var d: int := k as int - q;
    assert len + n - 1 == q * n + r && 0 <= r < n;
    assert d * n == k * n - q * n;
    assert 0 - (n as int) < d * n < n;
    SmallMultiple(d, n);
  }

  lemma SmallMultiple(d: int, n: int)
    requires n >= 1 && -n < d * n < n
    ensures d == 0
  {
  }

  /** `chunked(seq, n)`: a negative size is an error; a zero size yields nothing. */
  function Chunked<T>(s: seq<T>, n: int): (r: Result<seq<seq<T>>, ChunkError>)
    ensures r.Err? <==> n < 0
    ensures n == 0 ==> r == Ok([])
    ensures n >= 1 ==> r.Ok? && Flatten(r.value) == s && WellChunked(r.value, n)
    ensures n >= 1 ==> |r.value| == (|s| + n - 1) / n
    ensures n >= 0 && |s| == 0 ==> r == Ok([])
  {
    if n < 0 then Err(NegativeChunkSize)
    else if n == 0 then Ok([])
    else
      var chunks := Split(s, n);
      CeilingCount(|s|, n, |chunks|);
      Ok(chunks)
  }

  /** One step of the generator: the first chunk is the first `n` items (or all of them). */
  lemma SplitStep<T>(t: seq<T>, n: nat)
    requires n >= 1 && |t| > 0
    ensures var j := if n <= |t| then n else |t|;
      Split(t, n) == [t[..j]] + Split(t[j..], n)
  {
    if |t| <= n {
      assert t[..|t|] == t;
      assert t[|t|..] == [];
    }
  }

  /** One pass of the generator's loop on the unconsumed suffix `s[i..]`. */
  lemma LoopStep<T>(s: seq<T>, i: nat, j: nat, n: nat, chunks: seq<seq<T>>)
    requires n >= 1 && i < j <= |s| && (j == i + n || j == |s|) && j <= i + n
    requires chunks + Split(s[i..], n) == Split(s, n)
    ensures (chunks + [s[i..j]]) + Split(s[j..], n) == Split(s, n)
  {
    var t := s[i..];
    var k := j - i;
    SplitStep(t, n);
    assert t[..k] == s[i..j];
    assert t[k..] == s[j..];
    var rest := Split(s[j..], n);
    assert Split(t, n) == [s[i..j]] + rest;
    ConcatAssoc(chunks, [s[i..j]], rest);
  }

  lemma ConcatAssoc<T>(a: seq<T>, b: seq<T>, c: seq<T>)
    ensures (a + b) + c == a + (b + c)
  {
  }

  /** The generator's own loop: take up to `n` items at a time until a take comes back empty. */
  method ChunkedLoop<T>(s: seq<T>, n: int) returns (r: Result<seq<seq<T>>, ChunkError>)
    ensures r == Chunked(s, n)
  {
    if n < 0 {
      return Err(NegativeChunkSize);
    }
    var chunks: seq<seq<T>> := [];
    var i := 0;
    while true
      invariant 0 <= i <= |s|
      invariant n == 0 ==> chunks == []
      invariant n >= 1 ==> chunks + Split(s[i..], n) == Split(s, n)
      decreases |s| - i
    {
      var j := if i + n <= |s| then i + n else |s|;
      var rv := s[i..j];
      if |rv| == 0 {
        break;
      }
      LoopStep(s, i, j, n, chunks);
      chunks := chunks + [rv];
      i := j;
    }
    if n >= 1 {
      assert i == |s| && s[i..] == [];
      assert chunks == chunks + Split(s[i..], n);
    }
    return Ok(chunks);
  }

  /** The doctest: `chunked(range(8), 3)` yields [0, 1, 2], [3, 4, 5], [6, 7]. */
  lemma ChunkedDoctest()
    ensures Chunked([0, 1, 2, 3, 4, 5, 6, 7], 3) == Ok([[0, 1, 2], [3, 4, 5], [6, 7]])
  {
    var s := [0, 1, 2, 3, 4, 5, 6, 7];
    var t := [3, 4, 5, 6, 7];
    var u := [6, 7];
    assert Split(u, 3) == [u];
    SplitStep(t, 3);
    assert t[..3] == [3, 4, 5] && t[3..] == u;
    assert Split(t, 3) == [[3, 4, 5], [6, 7]];
    SplitStep(s, 3);
    assert s[..3] == [0, 1, 2] && s[3..] == t;
    assert Split(s, 3) == [[0, 1, 2], [3, 4, 5], [6, 7]];
  }

  // ---------------------------------------------------------------------
  // absolutify
  // ---------------------------------------------------------------------

  /** The settings `absolutify` reads. A missing, `False` or empty `SITE_URL`
      are all falsy and are modelled as `None` or the empty string. */
  datatype SiteSettings = SiteSettings(siteUrl: Option<string>, protocol: string, domain: string, port: int)

  /** The scheme/port pairs whose port is implied by the scheme. */
  predicate IsDefaultPort(protocol: string, port: int) {
    (protocol == "https://" && port == 443) || (protocol == "http://" && port == 80)
  }

  predicate HasSiteUrl(cfg: SiteSettings) {
    cfg.siteUrl.Some? && cfg.siteUrl.value != ""
  }

  /** The site prefix: `SITE_URL` when set, otherwise protocol, host and, unless
      implied by the protocol, ':' and the port. */
  function SiteUrl(cfg: SiteSettings): string {
    if HasSiteUrl(cfg) then cfg.siteUrl.value
    else if IsDefaultPort(cfg.protocol, cfg.port) then cfg.protocol + cfg.domain
    else cfg.protocol + cfg.domain + ":" + IntToDecimal(cfg.port)
  }

  function Absolutify(cfg: SiteSettings, url: string): (r: string)
    ensures IsSuffix(url, r)
    ensures HasSiteUrl(cfg) ==> r == cfg.siteUrl.value + url
    ensures !HasSiteUrl(cfg) ==> IsPrefix(cfg.protocol + cfg.domain, r)
    ensures !HasSiteUrl(cfg) ==>
      (|r| == |cfg.protocol| + |cfg.domain| + |url| <==> IsDefaultPort(cfg.protocol, cfg.port))
  {
    assert (SiteUrl(cfg) + url)[|SiteUrl(cfg) + url| - |url|..] == url;
    SiteUrl(cfg) + url
  }

  /** Without `SITE_URL` and with a port the protocol does not imply, the text
      between the host and the path is ':' followed by digits that read back
      as the configured port. */
  lemma AbsolutifyCarriesPort(cfg: SiteSettings, url: string)
    requires !HasSiteUrl(cfg) && !IsDefaultPort(cfg.protocol, cfg.port)
    ensures var r := Absolutify(cfg, url);
      var hostEnd := |cfg.protocol| + |cfg.domain|;
      hostEnd + 1 < |r| - |url| &&
      r[hostEnd] == ':' && ParseInt(r[hostEnd + 1..|r| - |url|]) == Some(cfg.port)
  {
    var r := Absolutify(cfg, url);
    var hostEnd := |cfg.protocol| + |cfg.domain|;
    var digits := IntToDecimal(cfg.port);
    assert r == cfg.protocol + cfg.domain + ":" + digits + url;
    assert r[hostEnd + 1..|r| - |url|] == digits;
    IntDecimalRoundTrip(cfg.port);
  }

  /** With the base settings (https on port 443, no `SITE_URL`) no port is
      written: the result is the scheme, the host and the URL. */
  lemma AbsolutifyWithBaseSettings(domain: string, url: string)
    ensures Absolutify(SiteSettings(None, Settings.PROTOCOL, domain, Settings.PORT), url)
              == "https://" + domain + url
  {
  }

  // ---------------------------------------------------------------------
  // urlparams
  // ---------------------------------------------------------------------

  /** A URL split into its six components, with the query already decoded
      into name/value pairs in the order they appear. */
  datatype Url = Url(scheme: string, netloc: string, path: string, params: string,
                     query: seq<(string, string)>, fragment: string)

  /** The URL `urlparams` builds, before its query is encoded. The query comes
      from a Python dictionary, whose iteration order the program does not
      fix, so it is kept as a map. */
  datatype ParamsUrl = ParamsUrl(scheme: string, netloc: string, path: string, params: string,
                                 query: map<string, string>, fragment: string)

  /** `d` is the dictionary built from `pairs`: every name present, every
      entry taken from the pairs, and each name bound to its last value. */
  ghost predicate DictOf(pairs: seq<(string, string)>, d: map<string, string>) {
    && (forall i :: 0 <= i < |pairs| ==> pairs[i].0 in d)
    && (forall k :: k in d ==> (k, d[k]) in pairs)
    && (forall i :: 0 <= i < |pairs| ==>
          (forall j :: i < j < |pairs| ==> pairs[j].0 != pairs[i].0) ==> d[pairs[i].0] == pairs[i].1)
  }

  /** `dict(parse_qsl(q))`: each name present in the query, bound to the value
      of its last occurrence. */
  function QueryDict(pairs: seq<(string, string)>): (d: map<string, string>)
    ensures forall i :: 0 <= i < |pairs| ==> pairs[i].0 in d
    ensures forall k :: k in d ==> (k, d[k]) in pairs
    ensures forall i :: 0 <= i < |pairs| ==>
      (forall j :: i < j < |pairs| ==> pairs[j].0 != pairs[i].0) ==> d[pairs[i].0] == pairs[i].1
  {
    if |pairs| == 0 then map[]
    else
      var prev := QueryDict(pairs[..|pairs| - 1]);
      QueryDictStep(pairs, prev);
      prev[pairs[|pairs| - 1].0 := pairs[|pairs| - 1].1]
  }

  /** Adding the last pair to the dictionary of the others gives the dictionary of all. */
  lemma QueryDictStep(pairs: seq<(string, string)>, prev: map<string, string>)
    requires |pairs| > 0 && DictOf(pairs[..|pairs| - 1], prev)
    ensures DictOf(pairs, prev[pairs[|pairs| - 1].0 := pairs[|pairs| - 1].1])
  {
    var init := pairs[..|pairs| - 1];
    var last := pairs[|pairs| - 1];
    var d := prev[last.0 := last.1];
    assert forall i :: 0 <= i < |pairs| ==> pairs[i].0 in d by {
      assert forall i :: 0 <= i < |pairs| - 1 ==> init[i] == pairs[i];
    }
    StepEntries(init, last, prev);
    assert pairs == init + [last];
    StepLastWins(init, last, prev);
  }

  lemma StepEntries(init: seq<(string, string)>, last: (string, string), prev: map<string, string>)
    requires forall k :: k in prev ==> (k, prev[k]) in init
    ensures var d := prev[last.0 := last.1];
      forall k :: k in d ==> (k, d[k]) in init + [last]
  {
  }

  lemma StepLastWins(init: seq<(string, string)>, last: (string, string), prev: map<string, string>)
    requires forall i :: 0 <= i < |init| ==> init[i].0 in prev
    requires forall i :: 0 <= i < |init| ==>
      (forall j :: i < j < |init| ==> init[j].0 != init[i].0) ==> prev[init[i].0] == init[i].1
    ensures var pairs := init + [last];
      var d := prev[last.0 := last.1];
      forall i :: 0 <= i < |pairs| ==>
        (forall j :: i < j < |pairs| ==> pairs[j].0 != pairs[i].0) ==> d[pairs[i].0] == pairs[i].1
  {
    var pairs := init + [last];
    var d := prev[last.0 := last.1];
    forall i | 0 <= i < |pairs| && (forall j :: i < j < |pairs| ==> pairs[j].0 != pairs[i].0)
      ensures d[pairs[i].0] == pairs[i].1
    {
      if i < |init| {
        assert pairs[i] == init[i];
        assert pairs[|init|] == last;
        assert forall j :: i < j < |init| ==> init[j] == pairs[j];
      }
    }
  }

  /** `query_dict.update(query)` followed by dropping the `None` values: the
      new parameters override the stored ones and `None` removes a parameter. */
  function ApplyUpdates(current: map<string, string>, updates: map<string, Option<string>>)
    : (m: map<string, string>)
    ensures forall k :: k in updates && updates[k].None? ==> k !in m
    ensures forall k :: k in updates && updates[k].Some? ==> k in m && m[k] == updates[k].value
    ensures forall k :: k !in updates ==> (k in m <==> k in current) && (k in m ==> m[k] == current[k])
  {
    var merged := map k | k in current.Keys + updates.Keys ::
      if k in updates then updates[k] else Some(current[k]);
    map k | k in merged && merged[k].Some? :: merged[k].value
  }

  /** Applying the same updates twice is the same as applying them once. */
  lemma ApplyUpdatesIdempotent(current: map<string, string>, updates: map<string, Option<string>>)
    ensures ApplyUpdates(ApplyUpdates(current, updates), updates) == ApplyUpdates(current, updates)
  {
    var once := ApplyUpdates(current, updates);
    var twice := ApplyUpdates(once, updates);
    assert forall k :: k in twice <==> k in once;
    assert forall k :: k in twice ==> twice[k] == once[k];
  }

  /** `urlparams(url, hash, **query)` */
  function UrlParams(u: Url, hash: Option<string>, updates: map<string, Option<string>>): (r: ParamsUrl)
    ensures r.scheme == u.scheme && r.netloc == u.netloc && r.path == u.path && r.params == u.params
    ensures hash.Some? ==> r.fragment == hash.value
    ensures hash.None? ==> r.fragment == u.fragment
    ensures forall k :: k in updates && updates[k].None? ==> k !in r.query
    ensures forall k :: k in updates && updates[k].Some? ==> k in r.query && r.query[k] == updates[k].value
    ensures forall k :: k !in updates ==>
      (k in r.query <==> k in QueryDict(u.query)) &&
      (k in r.query ==> r.query[k] == QueryDict(u.query)[k])
  {
    var fragment := if hash.Some? then hash.value else u.fragment;
    ParamsUrl(u.scheme, u.netloc, u.path, u.params, ApplyUpdates(QueryDict(u.query), updates), fragment)
  }

  /** `pairs` is some listing of the entries of `m` (in any order). */
  ghost predicate Lists(pairs: seq<(string, string)>, m: map<string, string>) {
    && (forall i :: 0 <= i < |pairs| ==> pairs[i].0 in m && m[pairs[i].0] == pairs[i].1)
    && (forall k :: k in m ==> (k, m[k]) in pairs)
  }

  /** Reading back a listing of a map gives the map. */
  lemma QueryDictOfListing(pairs: seq<(string, string)>, m: map<string, string>)
    requires Lists(pairs, m)
    ensures QueryDict(pairs) == m
  {
    var d := QueryDict(pairs);
    forall k | k in d ensures k in m && m[k] == d[k] {
      var i :| 0 <= i < |pairs| && pairs[i] == (k, d[k]);
    }
    forall k | k in m ensures k in d {
      var i :| 0 <= i < |pairs| && pairs[i] == (k, m[k]);
    }
  }

  /** Once the output is encoded and parsed again, applying the same parameters
      and fragment a second time changes nothing. */
  lemma UrlParamsIdempotent(u: Url, hash: Option<string>, updates: map<string, Option<string>>,
                            again: Url)
    requires var r := UrlParams(u, hash, updates);
      && again.scheme == r.scheme && again.netloc == r.netloc && again.path == r.path
      && again.params == r.params && again.fragment == r.fragment && Lists(again.query, r.query)
    ensures UrlParams(again, hash, updates) == UrlParams(u, hash, updates)
  {
    var r := UrlParams(u, hash, updates);
    QueryDictOfListing(again.query, r.query);
    ApplyUpdatesIdempotent(QueryDict(u.query), updates);
  }
}

=== FILE: vouch_views.dfy ===
/** The two testing views (switched on by a feature flag that is not part of
    this model): one auto-vouches a member, the other removes every vouch the member received.
    The vouch ledger is a sequence of records; whether `UserProfile.vouch`
    accepts a new vouch is decided by code outside this model and arrives as
    the parameter `accepted`. */
module VouchViews {
  import opened Results
  import opened Phonebook
  import Settings
  import Text

  /** One vouch: who gave it (None for an automatic vouch), who received it,
      the reason given, and whether it was automatic. */
  datatype VouchRecord = VouchRecord(voucher: Option<string>, vouchee: string, description: string, autovouch: bool)

  datatype VouchOutcome = VouchOutcome(response: Response, ledger: seq<VouchRecord>, effects: seq<Effect>)

  /** The number of vouches `u` has received. */
  function ReceivedCount(ledger: seq<VouchRecord>, u: string): (c: nat)
    ensures c <= |ledger|
    ensures c == 0 <==> forall i :: 0 <= i < |ledger| ==> ledger[i].vouchee != u
  {
    if ledger == [] then 0
    else (if ledger[0].vouchee == u then 1 else 0) + ReceivedCount(ledger[1..], u)
  }

  /** Counting distributes over concatenation. */
  lemma {:induction false} ReceivedCountAppend(a: seq<VouchRecord>, b: seq<VouchRecord>, u: string)
    ensures ReceivedCount(a + b, u) == ReceivedCount(a, u) + ReceivedCount(b, u)
  {
    if a == [] {
      assert a + b == b;
    } else {
      assert (a + b)[1..] == a[1..] + b;
      ReceivedCountAppend(a[1..], b, u);
    }
  }

  /** The ledger without the vouches `u` received, in the original order. */
  function RemoveReceived(ledger: seq<VouchRecord>, u: string): (r: seq<VouchRecord>)
    ensures |r| <= |ledger|
    ensures forall v :: v in r <==> v in ledger && v.vouchee != u
    ensures ReceivedCount(r, u) == 0
    ensures forall w :: w != u ==> ReceivedCount(r, w) == ReceivedCount(ledger, w)
  {
    if ledger == [] then []
    else
      var rest := RemoveReceived(ledger[1..], u);
      assert forall v :: v in ledger <==> v == ledger[0] || v in ledger[1..];
      if ledger[0].vouchee == u then rest
      else
        assert ([ledger[0]] + rest)[1..] == rest;
        [ledger[0]] + rest
  }

  /** A vouch `u` received last is dropped with the others. */
  lemma {:induction false} RemoveReceivedDropsAppended(ledger: seq<VouchRecord>, v: VouchRecord)
    ensures RemoveReceived(ledger + [v], v.vouchee) == RemoveReceived(ledger, v.vouchee)
  {
    if ledger == [] {
      assert ledger + [v] == [v];
      assert [v][1..] == [];
    } else {
      assert (ledger + [v])[1..] == ledger[1..] + [v];
      RemoveReceivedDropsAppended(ledger[1..], v);
    }
  }

  /** Removing a member's vouches a second time changes nothing. */
  lemma {:induction false} RemoveReceivedIdempotent(ledger: seq<VouchRecord>, u: string)
    ensures RemoveReceived(RemoveReceived(ledger, u), u) == RemoveReceived(ledger, u)
  {
    if ledger != [] {
      RemoveReceivedIdempotent(ledger[1..], u);
      if ledger[0].vouchee != u {
        var rest := RemoveReceived(ledger[1..], u);
        assert ([ledger[0]] + rest)[1..] == rest;
      }
    }
  }

  /** The description the automatic test vouch carries, `now` being the current time as text. */
  function TestingDescription(now: string): string {
    "Automatically vouched for testing purposes on " + now
  }

  /** `vouch(request, username)`. `members` are the usernames with a profile,
      `now` the clock reading, and `accepted` whether `UserProfile.vouch`
      created the vouch. */
  function TestingVouch(members: set<string>, ledger: seq<VouchRecord>,
                        username: string, now: string, accepted: bool): (o: VouchOutcome)
    ensures username !in members ==> o == VouchOutcome(NotFound, ledger, [])
    ensures username in members ==>
      && o.response == Redirect(ProfileView(username))
      && |o.effects| == 2
      && o.effects[0].CallVouch?
      && o.effects[0].vouchee == username && o.effects[0].voucher.None? && o.effects[0].autovouch
      && Text.IsSuffix(now, o.effects[0].description)
      && o.effects[1] == Notify(if accepted then VouchedUser else NotVouched(Settings.VOUCH_COUNT_LIMIT))
    ensures o.ledger != ledger <==> username in members && accepted
    ensures o.ledger != ledger ==>
      && |o.ledger| == |ledger| + 1
      && o.ledger[..|ledger|] == ledger
      && o.ledger[|ledger|] == VouchRecord(None, username, TestingDescription(now), true)
  {
    if username !in members then VouchOutcome(NotFound, ledger, [])
    else
      var description := TestingDescription(now);
      assert Text.IsSuffix(now, description) by {
        assert description[|description| - |now|..] == now;
      }
      var record := VouchRecord(None, username, description, true);
      var effects := [CallVouch(username, None, description, true),
                      Notify(if accepted then VouchedUser else NotVouched(Settings.VOUCH_COUNT_LIMIT))];
      if accepted then
        assert |ledger + [record]| != |ledger|;
        assert (ledger + [record])[..|ledger|] == ledger;
        VouchOutcome(Redirect(ProfileView(username)), ledger + [record], effects)
      else
        VouchOutcome(Redirect(ProfileView(username)), ledger, effects)
  }

  /** `unvouch(request, username)`: every vouch the member received is deleted. */
  function TestingUnvouch(members: set<string>, ledger: seq<VouchRecord>,
                          username: string): (o: VouchOutcome)
    ensures username !in members ==> o == VouchOutcome(NotFound, ledger, [])
    ensures username in members ==>
      && o.response == Redirect(ProfileView(username))
      && o.effects == [Notify(UnvouchedUser)]
      && ReceivedCount(o.ledger, username) == 0
      && (forall w :: w != username ==> ReceivedCount(o.ledger, w) == ReceivedCount(ledger, w))
      && (forall v :: v in o.ledger <==> v in ledger && v.vouchee != username)
  {
    if username !in members then VouchOutcome(NotFound, ledger, [])
    else VouchOutcome(Redirect(ProfileView(username)), RemoveReceived(ledger, username), [Notify(UnvouchedUser)])
  }

  /** Unvouching after an automatic vouch leaves the ledger as unvouching
      alone would, whether or not the vouch was accepted; and unvouching is
      idempotent. */
  lemma UnvouchUndoesTestingVouch(members: set<string>, ledger: seq<VouchRecord>,
                                  username: string, now: string, accepted: bool)
    requires username in members
    ensures var vouched := TestingVouch(members, ledger, username, now, accepted).ledger;
      TestingUnvouch(members, vouched, username).ledger == TestingUnvouch(members, ledger, username).ledger
    ensures var cleared := TestingUnvouch(members, ledger, username).ledger;
      TestingUnvouch(members, cleared, username).ledger == cleared
  {
    var record := VouchRecord(None, username, TestingDescription(now), true);
    if accepted {
      assert TestingVouch(members, ledger, username, now, accepted).ledger == ledger + [record];
      RemoveReceivedDropsAppended(ledger, record);
    }
    RemoveReceivedIdempotent(ledger, username);
  }

  /** The limit of `VOUCH_COUNT_LIMIT` vouches per member is enforced inside
      `UserProfile.vouch`, which is not part of this model. Given that it
      refuses a vouch once the limit is reached, the test view keeps every
      member within the limit. */
  lemma TestingVouchKeepsLimit(members: set<string>, ledger: seq<VouchRecord>,
                               username: string, now: string, accepted: bool, w: string)
    requires ReceivedCount(ledger, w) <= Settings.VOUCH_COUNT_LIMIT
    requires accepted ==> ReceivedCount(ledger, username) < Settings.VOUCH_COUNT_LIMIT
    ensures ReceivedCount(TestingVouch(members, ledger, username, now, accepted).ledger, w)
              <= Settings.VOUCH_COUNT_LIMIT
  {
    var o := TestingVouch(members, ledger, username, now, accepted);
    if o.ledger != ledger {
      var record := VouchRecord(None, username, TestingDescription(now), true);
      assert o.ledger == ledger + [record];
      ReceivedCountAppend(ledger, [record], w);
      assert [record][1..] == [];
    }
  }
}
